=== FILE: README.md ===
# md-File-Reader document core, in Dafny

This is a model of the server side of md-File-Reader, a small ASP.NET Core app that stores markdown
documents per GitHub user and exports them to PDF and Word. The model covers:

- **The document table** (`documents.dfy`): a map from primary key to `Document`, with the
  rows the database accepts (declared column widths, no U+0000 in text) and the per-owner count.
- **The quota** (`limits.dfy`): `CheckDocumentLimitAsync`. It gives 500 documents per owner, except
  for one exempt address, which is compared ignoring case.
- **The document service** (`service.dfy`): owner-scoped get, save (an update, or a create checked
  against the quota), delete, and the newest-first listing. All are transitions of the table.
  Traces of requests are modelled too, and the quota is proved to hold along them.
- **Title extraction** (`title.dfy`): `ExtractTitle`. It is proved equal to a line-by-line
  reference description.
- **The document controller** (`controller.dfy`): the `Get`, `Save` and `Delete` actions. This
  covers the content check, the choice of title, and how exceptions map to 400 and 500.
- **The export reader** (`export.dfy`): the loop over lines that `ExportToPdf` and `ExportToWord`
  share. It classifies each line and tracks code fences, and it produces a sequence of `Block`s
  per renderer. The PDF and Word outputs are proved to agree up to how code is grouped.
- **Startup string handling** (`startup.dfy`): `ExtractHostFromConnectionString`, the connection
  string built from the PostgreSQL variables, and the fallback `.env` reader that merges
  `KEY=value` lines into the environment.

`text.dfy` holds the .NET string operations the code relies on, with their edge cases:

- `Trim`, over the full `Char.IsWhiteSpace` set;
- `Split` on one character, keeping empty pieces;
- `RemoveEmptyEntries`;
- `IndexOf`;
- ordinal `StartsWith`;
- ASCII ignore-case comparison.

`wrappers.dfy` holds `Option`.

Clock readings and the `Guid.NewGuid()` of a new row are parameters. The authenticated owner id and
e-mail address are given to the actions, not extracted from claims.

Where the code departs from what a reader might expect, the model follows the code:

- An update changes the title, content and update time only. It does not refresh the stored
  e-mail address.
- A title taken from a heading is never cut to 100 characters. Only a plain line's title is.
- The heading prefixes are tested `# `, then `## `, then `### `, not longest first. The three
  prefixes exclude each other (`HeadingMarkersExclusive`), so the order makes no difference.

These behaviours follow from the code and the database it writes to:

- The declared `MaxLength` of `user_id`, `user_email` and `title` makes them `varchar(n)` columns.
  PostgreSQL refuses a longer value unless everything past the n-th character is a space. In that
  case it stores the first n characters. A refused write is a `DbUpdateException`, which the action
  turns into a 500.
- The 200 answer to a save reports the title as the entity holds it, uncut. A later read returns
  the title as the column holds it.
- An update writes only the columns it changed: title, content and update time. So only those
  values are checked again.
- The `created_at` and `updated_at` columns keep whole microseconds. The driver drops the rest of
  the 100 ns tick count, so a row reads back with its times to the microsecond. Two saves within
  one microsecond tie in the newest-first listing.
- `Content` is a non-nullable `string` of the request, so model binding gives it an implicit
  `[Required]`, which refuses an empty or white-space-only string. The framework answers such a
  request with its validation 400 before the action runs. The action's own "Content cannot be
  empty" check is never reached.
- An owner id over 500 characters that is padded with spaces is stored cut. The row then belongs
  to the cut id, not to the owner who created it (`OverWidthOwnerLosesRow`).
- PostgreSQL's text types cannot hold the character U+0000. A row whose owner id, address, title
  or content holds one is refused the same way, and the action answers 500.
- A single-character quote value in `.env` makes `Substring(1, -1)` throw. The exception is not
  caught, so it ends the startup.

## Model

| member | source | states |
|---|---|---|
| Text.Trim | MdReader/Services/DocumentService.cs:102 | The trimmed line has no white space at either end, is empty exactly when the line is blank, and holds only characters of the line |
| Text.TrimRemovesOnlyEnds | MdReader/Services/DocumentService.cs:102 | The trimmed line is a slice of the line with only white space before and after it, so nothing inside is removed |
| Text.TrimIdempotent | Program.cs:37-45 | Trimming an already trimmed line again, as the key and value are, changes nothing |
| Text.IndexOf | Program.cs:41 | The result is the first position of the character, and -1 exactly when it does not occur |
| Text.Split | Services/ExportService.cs:51 | Splitting at line feeds gives at least one piece, no piece holds a line feed, and joining the pieces gives back the text |
| Text.SplitJoin | Services/ExportService.cs:64 | Splitting a text joined from line-feed-free pieces gives back exactly those pieces |
| Text.NonEmpty | MdReader/Services/DocumentService.cs:98 | Removing empty entries keeps every non-empty piece, each as often as it occurs, and drops every empty one |
| Text.NonEmptyInOrder | MdReader/Services/DocumentService.cs:98 | The kept pieces are exactly the pieces at the positions of the non-empty ones, in increasing order of position |
| Documents.CountAfterInsert | MdReader/Services/DocumentLimitService.cs:18-23 | Adding a row under a new key raises its owner's count by one and no other owner's count |
| Documents.CountAfterReplace | MdReader/Services/DocumentLimitService.cs:18-23 | Rewriting a row of the same owner changes no count |
| Documents.CountAfterRemove | MdReader/Services/DocumentLimitService.cs:18-23 | Removing a row lowers its owner's count by one and no other owner's count |
| Documents.DocumentCount | MdReader/Services/DocumentLimitService.cs:18-23 | The number of rows whose owner id is the given one; `CountAfterInsert`, `CountAfterReplace` and `CountAfterRemove` state how each write moves it |
| Documents.CutToWidth | MdReader/Models/Document.cs:14-24 | The value a `varchar(n)` column holds is a prefix of the value written, of its full length up to n characters and n characters beyond that |
| Documents.CutDropsOnlySpaces | MdReader/Models/Document.cs:14-24 | For a value the column accepts, what the cut drops is spaces and nothing else |
| Documents.ColumnTime | MdReader/Models/Document.cs:32-36 | A stored time is a whole number of microseconds from 2000-01-01, and lies within one microsecond of the reading, on the side toward 2000-01-01 |
| Documents.ColumnTimeIdempotent | MdReader/Models/Document.cs:32-36 | A time read back from the table is stored unchanged when written again |
| Documents.ColumnTimeMonotone | MdReader/Services/DocumentService.cs:23 | Storing keeps the order of clock readings, so the listing's order by stored update time never inverts two saves |
| Documents.Storable | MdReader/Models/Document.cs:13-30 | The database accepts a new row exactly when each bounded column fits its width and no text column holds U+0000; `SaveDocument` states that a create succeeds exactly then |
| Documents.AsStored | MdReader/Models/Document.cs:13-36 | The row the table holds for an accepted new row keeps its key and content, holds each bounded column cut to its width and both times to the microsecond, leaves a row already in that form unchanged, and stays acceptable |
| Documents.Edited | MdReader/Services/DocumentService.cs:47-49 | An accepted update keeps the row's key, owner, address and creation time, and holds the new title cut to 500 characters, the new content, and the update time to the microsecond; an acceptable row stays acceptable |
| DocumentLimits.CheckDocumentLimit | MdReader/Services/DocumentLimitService.cs:27-42 | The exempt address is always allowed and reports limit -1; any other address reports limit 500 and is allowed exactly below 500 |
| DocumentLimits.CheckStore | MdReader/Services/DocumentLimitService.cs:37 | The reported count is the number of rows the owner holds |
| DocumentLimits.CheckIgnoresCase | MdReader/Services/DocumentLimitService.cs:30 | Addresses that differ only in letter case get the same answer |
| DocumentLimits.AllowedExactly | MdReader/Services/DocumentLimitService.cs:30-41 | Creation is allowed if and only if the address is exempt or the count is below 500; a refusal reports 500 |
| DocumentService.GetDocument | MdReader/Services/DocumentService.cs:28-32 | A row is returned exactly when it exists and belongs to the caller |
| DocumentService.SaveDocument | MdReader/Services/DocumentService.cs:35-76 | Update: a row the caller does not own fails with "not found or access denied"; an owned row is rewritten in title, content and update time exactly when the database accepts the new values, and otherwise the write is refused. Create: refused at the quota; an allowed create is written, with the caller's identity, exactly when its key is unused and the database accepts the row, and otherwise the write is refused. A failed save writes nothing |
| DocumentService.DeleteDocument | MdReader/Services/DocumentService.cs:79-90 | The row is removed, and `true` returned, exactly when the caller owns it; otherwise nothing changes |
| DocumentService.InsertNewestFirst | MdReader/Services/DocumentService.cs:23 | Inserting into a newest-first list keeps it newest first and adds exactly the one row |
| DocumentService.GetUserDocuments | MdReader/Services/DocumentService.cs:19-25 | The listing holds every row of the owner exactly once, only those, ordered by descending stored update time; rows with equal stored times may come in any order |
| DocumentService.ApplyRespectsQuota | MdReader/Services/DocumentService.cs:53-60 | One request never raises a non-exempt owner's count above the larger of 500 and the count before |
| DocumentService.RunRespectsQuota | MdReader/Services/DocumentService.cs:53-71 | Over any sequence of requests in which the owner never presents the exempt address, and every owner id is within its 500-character column, the owner's count stays at or below the larger of 500 and the starting count |
| DocumentService.CreateThenGet | MdReader/Services/DocumentService.cs:53-75 | A create the quota allows, with an owner id within its column, under an unused key, of a row the database accepts, is saved: the owner gains exactly one row, which reads back with the given content and each bounded column cut to its width |
| DocumentService.UpdateThenGet | MdReader/Services/DocumentService.cs:39-75 | An update of an owned row whose new title and content the database accepts is saved: the count does not change, and the row reads back with the new content, the new title cut to 500 characters, the update time to the microsecond, and the other columns as before |
| DocumentService.OverWidthOwnerLosesRow | MdReader/Models/Document.cs:13-16 | A create by an owner id over 500 characters, when saved, is stored under the id's first 500 characters: its creator cannot read it back, and the creator's count does not change |
| DocumentService.OverlongCreateRefused | MdReader/Services/DocumentService.cs:53-75 | A create whose title has something other than a space past its 500th character writes nothing, and fails with the quota refusal at the limit and with the database refusal otherwise |
| DocumentService.CreateAtLimit | MdReader/Services/DocumentService.cs:54-60 | At 500 documents a non-exempt create is refused with limit 500 and writes nothing; the exempt address is not refused by the quota |
| DocumentService.DeleteIdempotent | MdReader/Services/DocumentService.cs:79-90 | A second delete of the same id finds nothing and changes nothing |
| DocumentService.ForeignRowLooksMissing | MdReader/Services/DocumentService.cs:28-90 | Get, delete and update of another owner's row answer exactly as for a missing row, and write nothing |
| DocumentService.OtherOwnersUntouched | MdReader/Services/DocumentService.cs:35-90 | A request leaves every row of every other owner unchanged |
| DocumentService.RunKeepsRowsStorable | MdReader/Models/Document.cs:13-36 | Every sequence of saves and deletes keeps all rows within their declared column widths, free of U+0000, and with times to the microsecond |
| TitleExtraction.TitleOfLine | MdReader/Services/DocumentService.cs:102-110 | A `# ` or `## ` line gives its heading text trimmed, never cut; any other line gives its first 100 characters; the title is never blank |
| TitleExtraction.CutPlainTitle | MdReader/Services/DocumentService.cs:110 | A plain title is a prefix of the line, of length at most 100 |
| TitleExtraction.TitleOfLines | MdReader/Services/DocumentService.cs:100-113 | The title taken from a list of lines is never blank |
| TitleExtraction.ExtractTitle | MdReader/Services/DocumentService.cs:93-114 | Blank content is "Untitled Document", and the title is never blank |
| TitleExtraction.NonEmptyKeepsFirstContentLine | MdReader/Services/DocumentService.cs:98-111 | Dropping empty pieces does not change which line decides the title |
| TitleExtraction.ExtractTitleMeetsSpec | MdReader/Services/DocumentService.cs:93-114 | The title equals the one read off the first line with text, found among all the line-feed pieces |
| TitleExtraction.BlankIffNoContentLine | MdReader/Services/DocumentService.cs:95-100 | Content is blank if and only if none of its lines has text, so the fallback title is used exactly for blank content |
| TitleExtraction.TitleFromFirstContentLine | MdReader/Services/DocumentService.cs:95-113 | Content is blank exactly when no line has text; otherwise its first line with text gives the title |
| TitleExtraction.HeadingTitleNotCut | MdReader/Services/DocumentService.cs:100-105 | Content whose first line is a level-1 heading, of any length and with any white space inside its text, takes that text whole as its title |
| TitleExtraction.LevelThreeIsPlain | MdReader/Services/DocumentService.cs:104-110 | A `### ` line is taken as plain text, so its title is a prefix of the line |
| DocumentController.ExceptionOf | MdReader/Services/DocumentService.cs:45-74 | Not-found and quota refusals are `InvalidOperationException`s; a refused database write is not |
| DocumentController.CatchResponse | Controllers/DocumentController.cs:114-121 | An `InvalidOperationException` gives 400 and any other exception 500, each carrying the message |
| DocumentController.ChooseTitle | Controllers/DocumentController.cs:90-92 | A missing or blank request title is replaced by the extracted one; the chosen title is never blank |
| DocumentController.Save | Controllers/DocumentController.cs:82-143 | Blank content gets the validation 400 for `Content` and writes nothing; otherwise the table follows the service, success reports the id, title, and the count and limit after the save, and a failure maps to 400 or 500 (never 404) |
| DocumentController.Get | Controllers/DocumentController.cs:69-78 | 404 exactly when the service finds no row of the caller; otherwise the row |
| DocumentController.Delete | Controllers/DocumentController.cs:126-135 | 404 exactly when the caller owns no such row; otherwise 200 and the row is gone |
| DocumentController.SaveThenGet | Controllers/DocumentController.cs:82-112 | A create through `Save` that the quota allows, with an owner id within its column, under an unused key, of a row the database accepts, answers 200 with the new id, the chosen title uncut and a count one higher; `Get` returns the request's content with the chosen title cut to 500 characters |
| DocumentController.SaveAtLimitIsRefused | Controllers/DocumentController.cs:114-116 | A non-exempt owner at the limit gets 400 with the limit message, and nothing is written |
| DocumentController.PaddedTitleIsCut | Controllers/DocumentController.cs:94-112 | A title `T` followed by 500 or more spaces is saved: 200 with the title as sent, and the stored title is its first 500 characters |
| DocumentController.SaveWithOverlongTitle | Controllers/DocumentController.cs:94-121 | A create whose chosen title has something other than a space past its 500th character ends in 500, unless the quota refuses it first; nothing is written |
| DocumentController.LongHeadingFailsSave | Controllers/DocumentController.cs:90-121 | Title-less content whose first line is a level-1 heading over 500 characters cannot be saved: 500, or 400 when the quota refuses first |
| MarkdownExport.ClassifyLine | Services/ExportService.cs:78-101 | Heading lines lose their marker; `- ` and `* ` lines become bullet items; a line is a spacer exactly when it is blank; anything else is a paragraph of the trimmed line |
| MarkdownExport.PdfStep | Services/ExportService.cs:57-101 | One pass of the PDF loop; `PdfFenceParity` and `StepCorresponds` state its fence state and output against the Word loop |
| MarkdownExport.WordStep | Services/ExportService.cs:144-191 | One pass of the Word loop; `WordFenceParity` and `WordScanLength` state its fence state and that it adds one paragraph per non-fence line |
| MarkdownExport.PdfBody | Services/ExportService.cs:51-109 | The PDF elements after the title; `PdfAndWordAgree` states that they match the Word body up to how code lines are grouped |
| MarkdownExport.WordBody | Services/ExportService.cs:139-192 | The Word paragraphs after the title; `PdfAndWordAgree` relates them to the PDF body |
| MarkdownExport.PdfItems | Services/ExportService.cs:46-109 | The title element, then the PDF body |
| MarkdownExport.WordParagraphs | Services/ExportService.cs:131-192 | The title paragraph, an empty paragraph, then the Word body; `WordOneParagraphPerLine` counts them |
| MarkdownExport.HeadingMarkersExclusive | Services/ExportService.cs:78-89 | No line opens with two of the heading markers, so their order of testing does not matter |
| MarkdownExport.FenceParity | Services/ExportService.cs:59-69 | Both loops are inside code after a run of lines exactly when they met an odd number of fence lines (starting outside) |
| MarkdownExport.PdfFenceParity | Services/ExportService.cs:59-69 | From any state, the PDF loop ends inside code exactly when it started inside code or met an odd number of fences, not both |
| MarkdownExport.WordFenceParity | Services/ExportService.cs:143-153 | From any state, the Word loop ends inside code exactly when it started inside code or met an odd number of fences, not both |
| MarkdownExport.StepCorresponds | Services/ExportService.cs:55-102 | One line keeps the PDF and Word loops in step: same fence state, same non-code elements, same code lines |
| MarkdownExport.ScanCorresponds | Services/ExportService.cs:55-102 | Any run of lines keeps the two loops in step |
| MarkdownExport.PdfAndWordAgree | Services/ExportService.cs:51-192 | The PDF and Word bodies have the same non-code elements in the same order, and the PDF's code elements split at line feeds are exactly Word's code paragraphs |
| MarkdownExport.WordScanLength | Services/ExportService.cs:142-192 | The Word loop adds one paragraph for every line that is not a fence |
| MarkdownExport.WordOneParagraphPerLine | Services/ExportService.cs:131-192 | After the title and the empty paragraph, the Word document has exactly one paragraph per non-fence line |
| MarkdownExport.PdfFenced | Services/ExportService.cs:55-102 | Two lines of text, a fenced block of two lines and a closing line give two classified elements, one code element with the two lines joined by a line feed, and a last element |
| MarkdownExport.WordFenced | Services/ExportService.cs:142-188 | The same lines give one Word paragraph per line of text, each fenced line a code paragraph of its own |
| MarkdownExport.SamplePdf | Services/ExportService.cs:51-109 | A heading, a list item, a two-line fence and a paragraph give four PDF elements, the fence joined into one |
| MarkdownExport.SampleWord | Services/ExportService.cs:139-192 | The same text gives five Word paragraphs, one per fenced line |
| Startup.HostOf | Program.cs:12-14 | The first piece opening with `Host=` in any case gives what follows it; with none, "unknown" |
| Startup.ExtractHost | Program.cs:10-15 | The host of the first `Host=` piece of the `;`-split string, or "unknown"; never holds a `;` |
| Startup.HostRoundTrip | Program.cs:85 | The host logged for an assembled connection string is the host it was built from, when that holds no `;` |
| Startup.HostKeyIgnoresCase | Program.cs:13 | `host=` is found as well as `Host=` |
| Startup.NoHostIsUnknown | Program.cs:14 | Without a `Host=` piece the log says "unknown" |
| Startup.StripQuote | Program.cs:48-51 | A value both opening and closing with the quote loses exactly those two characters; a lone quote fails; anything else is kept |
| Startup.Unquote | Program.cs:48-51 | Double quotes are stripped first, then single quotes; `ParseDoubleQuoted`, `ParseSingleQuoted`, `EmptyQuotes`, `LoneQuoteFaults` and `NestedLoneQuoteFaults` state its results |
| Startup.ParseEnvLine | Program.cs:37-51 | Blank and `#` lines and lines without `=` are ignored; a pair's key is non-empty, free of `=`, not a comment, and trimmed |
| Startup.ParseTrimmed | Program.cs:38-45 | On trimmed text, empty and `#` text and text without `=` are ignored; a pair's key is non-empty, free of `=`, not a comment, and trimmed |
| Startup.LeadingEqualsIgnored | Program.cs:41-42 | A line whose text opens with `=` has no key and is passed over |
| Startup.ParseOfAssignment | Program.cs:37-51 | A trimmed `KEY=value` line with a valid key is the key and the unquoted value, or a fault when unquoting throws |
| Startup.ParsePadded | Program.cs:37-45 | White space around the line, around the key and around the value is dropped: `  KEY = value  ` reads as `KEY=value` |
| Startup.ParseAssignment | Program.cs:41-45 | `KEY=value` reads back as the key and the value, later `=` characters kept in the value |
| Startup.ParseDoubleQuoted | Program.cs:48-49 | `KEY="value"` reads back as the text between the quotes, inner white space included |
| Startup.ParseSingleQuoted | Program.cs:50-51 | `KEY='value'` reads back as the text between the single quotes, whatever it holds |
| Startup.EmptyQuotes | Program.cs:48-49 | `KEY=""` is an empty value |
| Startup.LoneQuoteFaults | Program.cs:48-51 | A value that is a lone `"` or `'` makes the reader throw |
| Startup.NestedLoneQuoteFaults | Program.cs:48-51 | A value `"'"` makes the reader throw, because double quotes are stripped first |
| Startup.Merge | Program.cs:53-57 | Keys already set keep their values; only the line's own key may be added, with its value; the merge throws exactly on a quote fault or a refused name |
| Startup.LoadFrom | Program.cs:35-59 | The loop only adds keys and keeps existing values; a crash happens at a line whose merge throws |
| Startup.LoadEnvFile | Program.cs:34-59 | Variables set before the file is read keep their values; a crash is at a line whose merge throws |
| Startup.FirstValueWins | Program.cs:53-57 | For lines whose names and values hold no U+0000, an unset key ends up set if and only if some line gives it a settable value, and then it holds the first such value |
| Startup.FaultStopsLoading | Program.cs:48-51 | A line whose quotes fault stops the loop there or earlier |
| Startup.CleanFileLoads | Program.cs:35-59 | A file without quote faults or NUL-led names is read to the end |
| Startup.IgnoredLinesChangeNothing | Program.cs:38-42 | Comment lines and lines without `=` leave the environment unchanged |

## Left out

- File and network I/O are not modelled: `File.Exists`, `ReadAllLines`, the database round trips and the HTTP pipeline. Lines, tables and requests are given as values.
- The `DotNetEnv` `Env.Load` call is a foreign library. Whatever it sets is part of the starting environment of `LoadEnvFile`.
- `ReadAllLines` also splits at `\r` and `\r\n`. The model takes the lines as given.
- The connection setup around line 85 of Program.cs is not modelled: the `DefaultConnection` lookup, the `PGPORT`/`PGSSLMODE` defaults, the `DATABASE_URL` fallback and its exception. Nor are the DI registrations, the OAuth, cookie and forwarded-header configuration, `EnsureCreated`, or port binding.
- Claim extraction (`GetUserId`, `GetUserEmail`) and `GetAll` are not modelled. The owner id and address are parameters.
- The exception 400 and 500 wrap the message as `{ error }`. The model keeps only the message.
- DocumentController.Save: the validation 400 is a problem-details body with the errors keyed by field and a trace id. The model keeps the field and the message. It assumes nullable reference types are enabled for the project, which is what makes `Content` required; the project file is not part of this model. Without that setting the action's own "Content cannot be empty" 400 answers instead, with the same status and nothing written.
- The request's `Content` is a non-null string. A null or missing body is a framework-level 400.
- `DateTime.MinValue` and `DateTime.MaxValue`, which the driver maps to infinite timestamps, are not modelled. A clock reading is never one of them.
- Requests are served one at a time. Two concurrent creates can both pass the quota check before either writes; that race is not modelled.
- `SaveDocument` does not promise that `UpdatedAt` is no earlier than `CreatedAt`, because a create reads the clock twice and both readings are parameters.
- The `Document` property initialisers (`Guid.NewGuid()`, `DateTime.UtcNow`, empty strings) are overwritten by every create. The new key is the `freshId` parameter.
- `MarkdownToHtml` is not modelled: its result is unused.
- PDF and Word layout is not modelled: fonts, sizes, padding, colours, the byte streams, and the exception wrapping around PDF generation.
- The export endpoints and the download file name are not modelled.
- Letter case is folded for ASCII only. .NET's ordinal ignore-case comparison also folds other letters.
- Culture-sensitive `StartsWith(string)` and `EndsWith(string)` are modelled as ordinal comparison. This covers the heading and list tests of `ExtractTitle` and the export loop, the fence test `StartsWith("```")` at lines 59 and 146 of Services/ExportService.cs, the `#` comment test at line 38 of Program.cs, and the quote tests `value.StartsWith("\"")`, `value.EndsWith("\"")`, `value.StartsWith("'")` and `value.EndsWith("'")` at lines 48 and 50 of Program.cs.
- Strings are sequences of characters, not UTF-16 code units. A title or key containing surrogate pairs may count differently.
- The browser client is not modelled.
- Startup.Merge: names and values are compared and stored whole, as an exact-case map (names are case-sensitive, as on Linux). On Windows, and in a lookup made before the runtime has cached the environment, the native calls cut a name or value at its first U+0000. That cut is not modelled, so `FirstValueWins` is stated only for lines whose names and values hold no U+0000.
- DocumentService.RunRespectsQuota: stated for saves whose owner id has at most 500 characters. A longer id padded with spaces is stored cut, and its row counts against whoever holds the cut id, an owner the quota check never saw. `CreateThenGet` and `SaveThenGet` make the same assumption; `OverWidthOwnerLosesRow` states what happens otherwise.

=== FILE: controller.dfy ===
/**
  `DocumentController`: the HTTP actions over the document service, as pure
  functions from the request (and the table) to a response. The authenticated
  owner id and e-mail address are given; claim extraction is not modelled.
*/
module DocumentController {
  import opened Wrappers
  import opened Text
  import opened Documents
  import opened DocumentLimits
  import opened DocumentService
  import opened TitleExtraction

  /** The body of `POST api/document` (`SaveDocumentRequest`). */
  datatype SaveDocumentRequest = SaveDocumentRequest(id: Option<Id>, title: Option<string>, content: string)

  /** The action results the controller returns. */
  datatype Response =
    | OkDocument(document: Document)
    | OkSaved(id: Id, title: string, documentCount: nat, documentLimit: int)
    | OkEmpty
    | BadRequest(error: string)
    | ValidationProblem(field: string, message: string)
    | NotFound
    | ServerError(error: string)

  function StatusCode(r: Response): int {
    match r
    case OkDocument(_) => 200
    case OkSaved(_, _, _, _) => 200
    case OkEmpty => 200
    case BadRequest(_) => 400
    case ValidationProblem(_, _) => 400
    case NotFound => 404
    case ServerError(_) => 500
  }

  /** The table after a request, and the response. */
  datatype Exchange = Exchange(store: Store, response: Response)

  /** An exception leaving `SaveDocumentAsync`, split the way the action's `catch` clauses split them. */
  datatype ServiceException = InvalidOperation(message: string) | OtherException(message: string)

  /** The message of the `[Required]` check that model binding applies to the non-nullable
      `Content` property; it refuses an empty or white-space-only string. */
  const ContentRequiredMessage: string := "The Content field is required."
  const NotFoundMessage: string := "Document not found or access denied"
  /** The message of Entity Framework's `DbUpdateException`. */
  const StoreFailureMessage: string :=
    "An error occurred while saving the entity changes. See the inner exception for details."

  /** The decimal text of an integer, as string interpolation writes it. */
  function DecimalString(n: int): string
    decreases if n < 0 then 1 - n else n
  {
    if n < 0 then "-" + DecimalString(-n)
    else if n < 10 then [('0' as int + n) as char]
    else DecimalString(n / 10) + DecimalString(n % 10)
  }

  function LimitMessage(limit: int): string {
    "Document limit reached. You have reached the maximum of " + DecimalString(limit)
    + " documents. Please delete some documents to create new ones."
  }

  /** The exception a failed save raises: the service's own refusals are
      `InvalidOperationException`s, a refused database write is not. */
  function ExceptionOf(e: SaveError): (x: ServiceException)
    ensures x.InvalidOperation? <==> !e.StoreRejected?
  {
    match e
    case NotFoundOrAccessDenied => InvalidOperation(NotFoundMessage)
    case LimitReached(limit) => InvalidOperation(LimitMessage(limit))
    case StoreRejected => OtherException(StoreFailureMessage)
  }

  /** The `catch` clauses of `Save`: 400 with the message for an `InvalidOperationException`,
      500 with the message for anything else. */
  function CatchResponse(x: ServiceException): (r: Response)
    ensures StatusCode(r) == (if x.InvalidOperation? then 400 else 500)
    ensures r.BadRequest? ==> r.error == x.message
    ensures r.ServerError? ==> r.error == x.message
  {
    match x
    case InvalidOperation(m) => BadRequest(m)
    case OtherException(m) => ServerError(m)
  }

  /** The title handed to the service: the request's own unless it is missing or blank,
      in which case the one derived from the content. Either way it is never blank. */
  function ChooseTitle(title: Option<string>, content: string): (r: string)
    ensures title.Some? && !IsBlank(title.value) ==> r == title.value
    ensures title.None? || IsBlank(title.value) ==> r == ExtractTitle(content)
    ensures !IsBlank(r)
  {
    if title.None? || IsBlank(title.value) then ExtractTitle(content) else title.value
  }

  /** `Save`: blank content is refused by the request's validation, which runs before the action
      (so the action's own emptiness check is never reached); otherwise choose the title, save,
      and report the owner's count and limit as they stand after the save. */
  function Save(store: Store, userId: string, userEmail: string, req: SaveDocumentRequest,
                now: Time, later: Time, freshId: Id): (r: Exchange)
    ensures IsBlank(req.content) ==> r == Exchange(store, ValidationProblem("Content", ContentRequiredMessage))
    ensures !IsBlank(req.content) ==>
      var out := SaveDocument(store, userId, userEmail, ChooseTitle(req.title, req.content),
                              req.content, req.id, now, later, freshId);
      && r.store == out.store
      && (out.result.Saved? ==>
            var check := CheckStore(out.store, userEmail, userId);
            r.response == OkSaved(out.result.document.id, out.result.document.title, check.currentCount, check.limit))
      && (out.result.SaveFailed? ==> StoreCode(out.result.error) == StatusCode(r.response))
    ensures StatusCode(r.response) != 404
  {
    if IsBlank(req.content) then Exchange(store, ValidationProblem("Content", ContentRequiredMessage))
    else
      var title := ChooseTitle(req.title, req.content);
      var out := SaveDocument(store, userId, userEmail, title, req.content, req.id, now, later, freshId);
      match out.result
      case Saved(d) =>
        var check := CheckStore(out.store, userEmail, userId);
        Exchange(out.store, OkSaved(d.id, d.title, check.currentCount, check.limit))
      case SaveFailed(e) =>
        Exchange(out.store, CatchResponse(ExceptionOf(e)))
  }

  /** The status a failed save ends in: the service's refusals are client errors, a refused
      write is a server error. */
  function StoreCode(e: SaveError): int {
    if e.StoreRejected? then 500 else 400
  }

  /** `Get`: 404 exactly when the service finds no row of this owner under this id. */
  function Get(store: Store, id: Id, userId: string): (r: Response)
    ensures r == NotFound <==> GetDocument(store, id, userId).None?
    ensures r != NotFound ==> r == OkDocument(store[id]) && store[id].userId == userId
  {
    match GetDocument(store, id, userId)
    case None => NotFound
    case Some(d) => OkDocument(d)
  }

  /** `Delete`: 404 exactly when the service removed nothing, 200 otherwise. */
  function Delete(store: Store, id: Id, userId: string): (r: Exchange)
    ensures r.response == NotFound <==> !OwnedBy(store, id, userId)
    ensures r.response != NotFound ==> r.response == OkEmpty
    ensures r.store == DeleteDocument(store, id, userId).store
  {
    var out := DeleteDocument(store, id, userId);
    if out.deleted then Exchange(out.store, OkEmpty) else Exchange(out.store, NotFound)
  }

  /** A create through `Save` that the quota allows, under an unused key, of a row the database
      accepts, answers 200 with the new id, the chosen title and a count one higher, and `Get`
      then returns the request's content under the chosen title as its column holds it. */
  lemma SaveThenGet(store: Store, userId: string, userEmail: string, req: SaveDocumentRequest,
                    now: Time, later: Time, freshId: Id)
    requires !IsBlank(req.content) && !IsUpdate(req.id) && |userId| <= MaxUserIdLength
    requires CheckStore(store, userEmail, userId).allowed && freshId !in store
    requires Storable(Document(freshId, userId, userEmail, ChooseTitle(req.title, req.content), req.content, now, later))
    ensures var ex := Save(store, userId, userEmail, req, now, later, freshId);
      && ex.response.OkSaved?
      && ex.response.id == freshId
      && ex.response.title == ChooseTitle(req.title, req.content)
      && ex.response.documentCount == DocumentCount(store, userId) + 1
      && Get(ex.store, freshId, userId).OkDocument?
      && Get(ex.store, freshId, userId).document.content == req.content
      && Get(ex.store, freshId, userId).document.title == CutToWidth(ChooseTitle(req.title, req.content), MaxTitleLength)
  {
    var title := ChooseTitle(req.title, req.content);
    CreateThenGet(store, userId, userEmail, title, req.content, req.id, now, later, freshId);
  }

  /** A title padded with spaces past its column is accepted: the action answers 200 with the
      title as sent, and the stored title is its first 500 characters. */
  lemma PaddedTitleIsCut(store: Store, userId: string, userEmail: string, pad: nat,
                         now: Time, later: Time, freshId: Id)
    requires CheckStore(store, userEmail, userId).allowed && freshId !in store
    requires |userId| <= MaxUserIdLength && FitsWidth(userEmail, MaxUserEmailLength)
    requires NulFree(userId) && NulFree(userEmail)
    requires pad >= MaxTitleLength
    ensures var title := "T" + seq(pad, _ => ' ');
      var ex := Save(store, userId, userEmail, SaveDocumentRequest(None, Some(title), "body"), now, later, freshId);
      && ex.response.OkSaved?
      && ex.response.title == title
      && Get(ex.store, freshId, userId).OkDocument?
      && Get(ex.store, freshId, userId).document.title == title[..MaxTitleLength]
  {
    var title := "T" + seq(pad, _ => ' ');
    var req := SaveDocumentRequest(None, Some(title), "body");
    assert !IsBlank(title) by {
      assert title[0] == 'T';
    }
    assert !IsBlank(req.content) by {
      assert req.content[0] == 'b';
    }
    assert forall k | 0 < k < |title| :: title[k] == ' ';
    SaveThenGet(store, userId, userEmail, req, now, later, freshId);
  }

  /** An owner at the limit who presents a regular address gets 400 with the limit message,
      and nothing is written. */
  lemma SaveAtLimitIsRefused(store: Store, userId: string, userEmail: string, req: SaveDocumentRequest,
                             now: Time, later: Time, freshId: Id)
    requires !IsBlank(req.content) && !IsUpdate(req.id)
    requires DocumentCount(store, userId) >= DefaultLimit && !IsUnlimited(userEmail)
    ensures Save(store, userId, userEmail, req, now, later, freshId)
         == Exchange(store, BadRequest(LimitMessage(DefaultLimit)))
  {
  }

  /** A title-less create whose first line is a level-1 heading longer than the title column is
      not shortened: the database refuses the row and the action answers 500. */
  lemma LongHeadingFailsSave(store: Store, userId: string, userEmail: string, text: string, rest: string,
                             now: Time, later: Time, freshId: Id)
    requires text != [] && !IsWhiteSpace(text[0]) && !IsWhiteSpace(text[|text| - 1]) && '\n' !in text
    requires rest == [] || rest[0] == '\n'
    requires |text| > MaxTitleLength
    ensures Save(store, userId, userEmail, SaveDocumentRequest(None, None, "# " + text + rest), now, later, freshId)
         == Exchange(store, if CheckStore(store, userEmail, userId).allowed
                            then ServerError(StoreFailureMessage)
                            else BadRequest(LimitMessage(DefaultLimit)))
  {
    var content := "# " + text + rest;
    assert !IsBlank(content) by {
      assert content[2] == text[0];
    }
    HeadingTitleNotCut(text, rest);
    assert !FitsWidth(text, MaxTitleLength) by {
      assert text[|text| - 1] != ' ';
    }
    SaveWithOverlongTitle(store, userId, userEmail, SaveDocumentRequest(None, None, content), now, later, freshId);
  }

  /** A create whose chosen title does not fit the title column (something other than a space
      past its width) ends in 500 unless the quota refuses it first; either way nothing is written. */
  lemma SaveWithOverlongTitle(store: Store, userId: string, userEmail: string, req: SaveDocumentRequest,
                              now: Time, later: Time, freshId: Id)
    requires !IsBlank(req.content) && !IsUpdate(req.id)
    requires !FitsWidth(ChooseTitle(req.title, req.content), MaxTitleLength)
    ensures Save(store, userId, userEmail, req, now, later, freshId)
         == Exchange(store, if CheckStore(store, userEmail, userId).allowed
                            then ServerError(StoreFailureMessage)
                            else BadRequest(LimitMessage(DefaultLimit)))
  {
    OverlongCreateRefused(store, userId, userEmail, ChooseTitle(req.title, req.content), req.content,
                          req.id, now, later, freshId);
  }
}

=== FILE: documents.dfy ===
/**
  The `Document` record and the table that holds it: a map from primary key to
  record, the declared column limits, and the per-owner view of the table.
*/
module Documents {

  /** A `Guid`; `EmptyId` plays `Guid.Empty`. */
  type Id = nat

  const EmptyId: Id := 0

  /** A `DateTime` reading of the UTC clock, in ticks of 100 ns. */
  type Time = int

  /** The ticks of 2000-01-01, the origin PostgreSQL counts timestamps from. */
  const PostgresEpochTicks: Time := 630822816000000000

  const TicksPerMicrosecond: nat := 10

  /** The reading a `timestamp` column holds for `t`. PostgreSQL keeps whole microseconds, and
      the driver sends the ticks since its origin divided by ten, truncating toward zero. */
  function ColumnTime(t: Time): (r: Time)
    ensures (r - PostgresEpochTicks) % TicksPerMicrosecond == 0
    ensures t >= PostgresEpochTicks ==> r <= t < r + TicksPerMicrosecond
    ensures t < PostgresEpochTicks ==> r - TicksPerMicrosecond < t <= r
  {
    var since := t - PostgresEpochTicks;
    var micros := if since >= 0 then since / TicksPerMicrosecond else -((-since) / TicksPerMicrosecond);
    PostgresEpochTicks + micros * TicksPerMicrosecond
  }

  /** A reading the column already holds is stored unchanged. */
  lemma ColumnTimeIdempotent(t: Time)
    ensures ColumnTime(ColumnTime(t)) == ColumnTime(t)
  {
    var r := ColumnTime(t);
    var since := r - PostgresEpochTicks;
    assert since == (since / TicksPerMicrosecond) * TicksPerMicrosecond;
    if since < 0 {
      assert (-since) / TicksPerMicrosecond == -(since / TicksPerMicrosecond);
    }
  }

  /** Storing keeps the order of readings; readings within one microsecond may become equal. */
  lemma ColumnTimeMonotone(t: Time, u: Time)
    requires t <= u
    ensures ColumnTime(t) <= ColumnTime(u)
  {
  }

  /** Declared `[MaxLength]` of the `user_id`, `user_email` and `title` columns. */
  const MaxUserIdLength: nat := 500
  const MaxUserEmailLength: nat := 255
  const MaxTitleLength: nat := 500

  /** One row of `md_reader_documents`. Strings are never null in the model:
      every column is `[Required]`. */
  datatype Document = Document(
    id: Id,
    userId: string,
    userEmail: string,
    title: string,
    content: string,
    createdAt: Time,
    updatedAt: Time)

  /** A `varchar(n)` column takes a value longer than `n` characters only when every character
      past the `n`-th is a space; any other over-long value is refused. */
  predicate FitsWidth(s: string, n: nat) {
    forall k | n <= k < |s| :: s[k] == ' '
  }

  /** The value a `varchar(n)` column holds for an accepted `s`: its first `n` characters. */
  function CutToWidth(s: string, n: nat): (r: string)
    ensures r <= s
    ensures |r| == if |s| <= n then |s| else n
  {
    if |s| <= n then s else s[..n]
  }

  /** What the width check drops from an accepted value is spaces and nothing else. */
  lemma CutDropsOnlySpaces(s: string, n: nat)
    requires FitsWidth(s, n)
    ensures s == CutToWidth(s, n) + seq(|s| - |CutToWidth(s, n)|, _ => ' ')
  {
    var r := CutToWidth(s, n);
    var pad := seq(|s| - |r|, _ => ' ');
    assert forall k | 0 <= k < |s| :: s[k] == (r + pad)[k] by {
      forall k | 0 <= k < |s| ensures s[k] == (r + pad)[k] {
        if k < |r| {
          assert r[k] == s[k];
        } else {
          assert pad[k - |r|] == ' ';
        }
      }
    }
  }

  /** The database accepts the bounded columns of the row: each value fits its declared width. */
  predicate FitsColumns(d: Document) {
    && FitsWidth(d.userId, MaxUserIdLength)
    && FitsWidth(d.userEmail, MaxUserEmailLength)
    && FitsWidth(d.title, MaxTitleLength)
  }

  /** Every bounded column is within its declared width, as in a row read back from the table. */
  predicate WithinWidths(d: Document) {
    && |d.userId| <= MaxUserIdLength
    && |d.userEmail| <= MaxUserEmailLength
    && |d.title| <= MaxTitleLength
  }

  /** A text value PostgreSQL can hold: its text types refuse the character U+0000. */
  predicate NulFree(s: string) {
    '\0' !in s
  }

  /** The database accepts the row: it fits the declared widths and no text column holds U+0000. */
  predicate Storable(d: Document) {
    && FitsColumns(d)
    && NulFree(d.userId)
    && NulFree(d.userEmail)
    && NulFree(d.title)
    && NulFree(d.content)
  }

  /** The values an update writes are accepted: the title fits its width, and neither the title
      nor the content holds U+0000. An update writes only the columns it changed, so the rest
      of the row is not checked again. */
  predicate EditStorable(title: string, content: string) {
    FitsWidth(title, MaxTitleLength) && NulFree(title) && NulFree(content)
  }

  /** Both times of the row are readings a `timestamp` column holds. */
  predicate AtColumnPrecision(d: Document) {
    ColumnTime(d.createdAt) == d.createdAt && ColumnTime(d.updatedAt) == d.updatedAt
  }

  /** The row the table holds after an accepted update of `d`: the new title cut to its width,
      the new content, the update time to the microsecond, and every other column as it was. */
  function Edited(d: Document, title: string, content: string, now: Time): (r: Document)
    ensures r.id == d.id && r.userId == d.userId && r.userEmail == d.userEmail && r.createdAt == d.createdAt
    ensures r.title == CutToWidth(title, MaxTitleLength) && r.content == content
    ensures r.updatedAt == ColumnTime(now)
    ensures Storable(d) && WithinWidths(d) && EditStorable(title, content) ==> Storable(r) && WithinWidths(r)
    ensures AtColumnPrecision(d) ==> AtColumnPrecision(r)
  {
    var r := d.(title := CutToWidth(title, MaxTitleLength), content := content, updatedAt := ColumnTime(now));
    PrefixNulFree(r.title, title);
    ColumnTimeIdempotent(now);
    r
  }

  /** The row the table holds for an accepted `d`: each bounded column cut to its width, both
      times to the microsecond, and the key and content as written. */
  function AsStored(d: Document): (r: Document)
    ensures r.id == d.id && r.content == d.content
    ensures r.userId == CutToWidth(d.userId, MaxUserIdLength)
    ensures r.userEmail == CutToWidth(d.userEmail, MaxUserEmailLength)
    ensures r.title == CutToWidth(d.title, MaxTitleLength)
    ensures r.createdAt == ColumnTime(d.createdAt) && r.updatedAt == ColumnTime(d.updatedAt)
    ensures WithinWidths(r) && AtColumnPrecision(r)
    ensures WithinWidths(d) && AtColumnPrecision(d) ==> r == d
    ensures Storable(d) ==> Storable(r)
  {
    var r := d.(userId := CutToWidth(d.userId, MaxUserIdLength),
                userEmail := CutToWidth(d.userEmail, MaxUserEmailLength),
                title := CutToWidth(d.title, MaxTitleLength),
                createdAt := ColumnTime(d.createdAt),
                updatedAt := ColumnTime(d.updatedAt));
    PrefixNulFree(r.userId, d.userId);
    PrefixNulFree(r.userEmail, d.userEmail);
    PrefixNulFree(r.title, d.title);
    ColumnTimeIdempotent(d.createdAt);
    ColumnTimeIdempotent(d.updatedAt);
    r
  }

  lemma PrefixNulFree(p: string, s: string)
    requires p <= s
    ensures NulFree(s) ==> NulFree(p)
  {
    assert p == s[..|p|];
  }

  /** `Id` is the primary key: every row is stored under its own id. */
  predicate Keyed(m: map<Id, Document>) {
    forall k | k in m :: m[k].id == k
  }

  /** The table, as a map from primary key to row. */
  type Store = m: map<Id, Document> | Keyed(m) witness map[]

  /** Every row of the table is one the database accepts, held within its column widths and
      with its times to the microsecond. */
  predicate AllStorable(store: Store) {
    forall k | k in store :: Storable(store[k]) && WithinWidths(store[k]) && AtColumnPrecision(store[k])
  }

  /** The keys of the rows whose `UserId` is `userId`. */
  function OwnedIds(store: Store, userId: string): set<Id> {
    set k | k in store && store[k].userId == userId
  }

  /** `GetDocumentCountAsync`: the number of rows whose `UserId` is `userId`. */
  function DocumentCount(store: Store, userId: string): nat {
    |OwnedIds(store, userId)|
  }

  /** Adding a row under a new key raises its owner's count by one and leaves every other owner's count alone. */
  lemma CountAfterInsert(store: Store, d: Document, userId: string)
    requires d.id !in store
    ensures d.id in store[d.id := d]
    ensures DocumentCount(store[d.id := d], userId)
         == DocumentCount(store, userId) + (if d.userId == userId then 1 else 0)
  {
    if d.userId == userId {
      OwnerGainsRow(store, d);
    } else {
      OthersKeepRows(store, d, userId);
    }
  }

  lemma OwnerGainsRow(store: Store, d: Document)
    requires d.id !in store
    ensures OwnedIds(store[d.id := d], d.userId) == OwnedIds(store, d.userId) + {d.id}
    ensures d.id !in OwnedIds(store, d.userId)
  {
  }

  lemma OthersKeepRows(store: Store, d: Document, userId: string)
    requires d.id !in store && d.userId != userId
    ensures OwnedIds(store[d.id := d], userId) == OwnedIds(store, userId)
  {
  }

  /** Replacing a row by one with the same owner changes no owner's count. */
  lemma CountAfterReplace(store: Store, d: Document, userId: string)
    requires d.id in store && store[d.id].userId == d.userId
    ensures DocumentCount(store[d.id := d], userId) == DocumentCount(store, userId)
  {
    var after: Store := store[d.id := d];
    assert OwnedIds(after, userId) == OwnedIds(store, userId);
  }

  /** Removing a row lowers its owner's count by one and leaves every other owner's count alone. */
  lemma CountAfterRemove(store: Store, id: Id, userId: string)
    requires id in store
    ensures DocumentCount(store - {id}, userId)
         == DocumentCount(store, userId) - (if store[id].userId == userId then 1 else 0)
  {
    var after: Store := store - {id};
    if store[id].userId == userId {
      assert OwnedIds(after, userId) == OwnedIds(store, userId) - {id};
    } else {
      assert OwnedIds(after, userId) == OwnedIds(store, userId);
    }
  }
}

=== FILE: export.dfy ===
/**
  The line-by-line markdown reading inside `ExportService.ExportToPdf` and
  `ExportService.ExportToWord`: both split the text at line feeds, trim each line,
  toggle a code state on lines opening with three backticks, and classify the
  other lines. The elements they hand to the PDF and Word libraries are modelled
  as a sequence of `Block`s; layout, fonts and byte streams are not.
*/
module MarkdownExport {
  import opened Text

  /** One element placed in the exported document. */
  datatype Block =
    | Title(text: string)
    | Heading(level: nat, text: string)
    | ListItem(text: string)
    | Code(text: string)
    | Paragraph(text: string)
    | Spacer

  /** What a list item's text starts with in the output. */
  const Bullet: string := "\U{2022} "

  /** A trimmed line that opens or closes a code fence. */
  predicate IsFence(trimmed: string) {
    StartsWith(trimmed, "```")
  }

  /** The prefix of a heading of the given level. */
  function HeadingMarker(level: nat): string
    requires 1 <= level <= 3
  {
    if level == 1 then "# " else if level == 2 then "## " else "### "
  }

  predicate IsListMarked(trimmed: string) {
    StartsWith(trimmed, "- ") || StartsWith(trimmed, "* ")
  }

  /** The element a trimmed line outside a code fence becomes (shared by both renderers). */
  function ClassifyLine(trimmed: string): (b: Block)
    ensures b.Heading? ==> 1 <= b.level <= 3 && trimmed == HeadingMarker(b.level) + b.text
    ensures b.ListItem? ==> IsListMarked(trimmed) && b.text == Bullet + trimmed[2..]
    ensures b.Paragraph? ==> b.text == trimmed && !IsBlank(trimmed)
    ensures b.Paragraph? || b.Spacer? ==>
              !IsListMarked(trimmed) && forall n | 1 <= n <= 3 :: !StartsWith(trimmed, HeadingMarker(n))
    ensures b.Spacer? <==> IsBlank(trimmed)
    ensures !b.Code? && !b.Title?
  {
    assert StartsWith(trimmed, "#") || IsListMarked(trimmed) ==> !IsBlank(trimmed) by {
      if |trimmed| > 0 {
        assert trimmed[0] == trimmed[..1][0];
      }
    }
    if StartsWith(trimmed, "# ") then
      assert trimmed == "# " + trimmed[2..];
      Heading(1, trimmed[2..])
    else if StartsWith(trimmed, "## ") then
      assert trimmed == "## " + trimmed[3..];
      Heading(2, trimmed[3..])
    else if StartsWith(trimmed, "### ") then
      assert trimmed == "### " + trimmed[4..];
      Heading(3, trimmed[4..])
    else if IsListMarked(trimmed) then
      ListItem(Bullet + trimmed[2..])
    else if !IsBlank(trimmed) then
      Paragraph(trimmed)
    else
      Spacer
  }

  /** The three heading prefixes exclude each other, so their order of testing does not matter. */
  lemma HeadingMarkersExclusive(trimmed: string, m: nat, n: nat)
    requires 1 <= m < n <= 3
    ensures !(StartsWith(trimmed, HeadingMarker(m)) && StartsWith(trimmed, HeadingMarker(n)))
  {
    PrefixesExclusive(trimmed, HeadingMarker(m), HeadingMarker(n), m);
  }

  // ---------------------------------------------------------------- PDF

  /** The PDF loop's state: inside a fence or not, the fenced lines gathered so far, and the
      elements placed so far. */
  datatype PdfState = PdfState(inCode: bool, buffer: seq<string>, blocks: seq<Block>)

  /** The gathered fenced lines as one code element, joined with line feeds. */
  function CodeBlock(buffer: seq<string>): Block {
    Code(Join(buffer, '\n'))
  }

  /** One pass of the PDF loop. A fence closes a non-empty gathered block into one element,
      then toggles; fenced lines are gathered; other lines are classified. */
  function PdfStep(st: PdfState, line: string): PdfState {
    var trimmed := Trim(line);
    if IsFence(trimmed) then
      if st.inCode && |st.buffer| > 0 then PdfState(false, [], st.blocks + [CodeBlock(st.buffer)])
      else PdfState(!st.inCode, st.buffer, st.blocks)
    else if st.inCode then PdfState(true, st.buffer + [trimmed], st.blocks)
    else PdfState(false, st.buffer, st.blocks + [ClassifyLine(trimmed)])
  }

  function PdfScan(st: PdfState, lines: seq<string>): PdfState
    decreases |lines|
  {
    if |lines| == 0 then st else PdfScan(PdfStep(st, lines[0]), lines[1..])
  }

  /** The PDF body: the loop over the lines, then an unterminated fence's gathered lines, if any. */
  function PdfBody(markdown: string): seq<Block> {
    var end := PdfScan(PdfState(false, [], []), Split(markdown, '\n'));
    if end.inCode && |end.buffer| > 0 then end.blocks + [CodeBlock(end.buffer)] else end.blocks
  }

  /** The PDF column: the title, then the body (the two empty padding items are layout). */
  function PdfItems(markdown: string, title: string): seq<Block> {
    [Title(title)] + PdfBody(markdown)
  }

  // ---------------------------------------------------------------- Word

  /** The Word loop's state: inside a fence or not, and the paragraphs inserted so far. */
  datatype WordState = WordState(inCode: bool, paragraphs: seq<Block>)

  /** One pass of the Word loop: a fence only toggles; every other line is one paragraph. */
  function WordStep(st: WordState, line: string): WordState {
    var trimmed := Trim(line);
    if IsFence(trimmed) then WordState(!st.inCode, st.paragraphs)
    else if st.inCode then WordState(true, st.paragraphs + [Code(trimmed)])
    else WordState(false, st.paragraphs + [ClassifyLine(trimmed)])
  }

  function WordScan(st: WordState, lines: seq<string>): WordState
    decreases |lines|
  {
    if |lines| == 0 then st else WordScan(WordStep(st, lines[0]), lines[1..])
  }

  function WordBody(markdown: string): seq<Block> {
    WordScan(WordState(false, []), Split(markdown, '\n')).paragraphs
  }

  /** The Word document: the title paragraph, an empty paragraph, then the body. */
  function WordParagraphs(markdown: string, title: string): seq<Block> {
    [Title(title), Spacer] + WordBody(markdown)
  }

  // ---------------------------------------------------------------- properties

  /** The number of fence lines. */
  function FenceCount(lines: seq<string>): (n: nat)
    ensures n <= |lines|
  {
    if |lines| == 0 then 0 else (if IsFence(Trim(lines[0])) then 1 else 0) + FenceCount(lines[1..])
  }

  predicate Odd(n: nat) {
    n % 2 == 1
  }

  /** Both loops are inside a fence after the lines exactly when they started outside and met an
      odd number of fence lines (or started inside and met an even number). */
  lemma FenceParity(p: PdfState, w: WordState, lines: seq<string>)
    requires p.inCode == w.inCode
    ensures PdfScan(p, lines).inCode == WordScan(w, lines).inCode == (p.inCode != Odd(FenceCount(lines)))
  {
    PdfFenceParity(p, lines);
    WordFenceParity(w, lines);
  }

  /** One more line adds one to the fence count exactly when it is a fence, flipping the parity. */
  lemma FenceCountStep(lines: seq<string>)
    requires |lines| > 0
    ensures Odd(FenceCount(lines)) == (IsFence(Trim(lines[0])) != Odd(FenceCount(lines[1..])))
  {
    var rest := FenceCount(lines[1..]);
    if IsFence(Trim(lines[0])) {
      assert FenceCount(lines) == rest + 1;
      ParityOfSuccessor(rest);
    } else {
      assert FenceCount(lines) == rest;
    }
  }

  lemma ParityOfSuccessor(n: nat)
    ensures Odd(n + 1) == !Odd(n)
  {
  }

  lemma {:induction false} PdfFenceParity(p: PdfState, lines: seq<string>)
    ensures PdfScan(p, lines).inCode == (p.inCode != Odd(FenceCount(lines)))
    decreases |lines|
  {
    if |lines| > 0 {
      StepToggles(p, WordState(p.inCode, []), lines[0]);
      PdfFenceParity(PdfStep(p, lines[0]), lines[1..]);
      FenceCountStep(lines);
    }
  }

  lemma {:induction false} WordFenceParity(w: WordState, lines: seq<string>)
    ensures WordScan(w, lines).inCode == (w.inCode != Odd(FenceCount(lines)))
    decreases |lines|
  {
    if |lines| > 0 {
      StepToggles(PdfState(w.inCode, [], []), w, lines[0]);
      WordFenceParity(WordStep(w, lines[0]), lines[1..]);
      FenceCountStep(lines);
    }
  }

  /** A fence line toggles both loops' code state; any other line leaves it. */
  lemma StepToggles(p: PdfState, w: WordState, line: string)
    ensures PdfStep(p, line).inCode == (p.inCode != IsFence(Trim(line)))
    ensures WordStep(w, line).inCode == (w.inCode != IsFence(Trim(line)))
  {
  }

  /** The elements other than code. */
  function NonCode(bs: seq<Block>): seq<Block>
    decreases |bs|
  {
    if |bs| == 0 then []
    else NonCode(bs[..|bs| - 1]) + (if bs[|bs| - 1].Code? then [] else [bs[|bs| - 1]])
  }

  /** The text of each code element, in order (one per fenced line in the Word output). */
  function CodeTexts(bs: seq<Block>): seq<string>
    decreases |bs|
  {
    if |bs| == 0 then []
    else CodeTexts(bs[..|bs| - 1]) + (if bs[|bs| - 1].Code? then [bs[|bs| - 1].text] else [])
  }

  /** The fenced lines the code elements carry, each element split back at its line feeds
      (the PDF output joins a whole fenced region into one element). */
  function CodeLines(bs: seq<Block>): seq<string>
    decreases |bs|
  {
    if |bs| == 0 then []
    else CodeLines(bs[..|bs| - 1]) + (if bs[|bs| - 1].Code? then Split(bs[|bs| - 1].text, '\n') else [])
  }

  /** How the PDF and Word loops correspond: same fence state, same non-code elements, and the
      PDF's closed code lines plus its open gathering equal Word's code paragraphs. */
  predicate Corresponds(p: PdfState, w: WordState) {
    && p.inCode == w.inCode
    && (!p.inCode ==> p.buffer == [])
    && (forall i | 0 <= i < |p.buffer| :: '\n' !in p.buffer[i])
    && NonCode(p.blocks) == NonCode(w.paragraphs)
    && CodeLines(p.blocks) + p.buffer == CodeTexts(w.paragraphs)
  }

  lemma AppendOne(bs: seq<Block>, b: Block)
    ensures NonCode(bs + [b]) == NonCode(bs) + (if b.Code? then [] else [b])
    ensures CodeTexts(bs + [b]) == CodeTexts(bs) + (if b.Code? then [b.text] else [])
    ensures CodeLines(bs + [b]) == CodeLines(bs) + (if b.Code? then Split(b.text, '\n') else [])
  {
    assert (bs + [b])[..|bs|] == bs;
  }

  /** Closing a gathered region: split back at its line feeds, the element gives the lines. */
  lemma CloseRegion(blocks: seq<Block>, buffer: seq<string>)
    requires |buffer| > 0 && forall i | 0 <= i < |buffer| :: '\n' !in buffer[i]
    ensures NonCode(blocks + [CodeBlock(buffer)]) == NonCode(blocks)
    ensures CodeLines(blocks + [CodeBlock(buffer)]) == CodeLines(blocks) + buffer
  {
    AppendOne(blocks, CodeBlock(buffer));
    SplitJoin(buffer, '\n');
  }

  lemma StepCorresponds(p: PdfState, w: WordState, line: string)
    requires Corresponds(p, w) && '\n' !in line
    ensures Corresponds(PdfStep(p, line), WordStep(w, line))
  {
    var trimmed := Trim(line);
    assert '\n' !in trimmed;
    if IsFence(trimmed) {
      if p.inCode && |p.buffer| > 0 {
        CloseRegion(p.blocks, p.buffer);
      }
    } else if p.inCode {
      AppendOne(w.paragraphs, Code(trimmed));
      assert CodeLines(p.blocks) + (p.buffer + [trimmed]) == (CodeLines(p.blocks) + p.buffer) + [trimmed];
    } else {
      AppendOne(p.blocks, ClassifyLine(trimmed));
      AppendOne(w.paragraphs, ClassifyLine(trimmed));
    }
  }

  lemma {:induction false} ScanCorresponds(p: PdfState, w: WordState, lines: seq<string>)
    requires Corresponds(p, w)
    requires forall i | 0 <= i < |lines| :: '\n' !in lines[i]
    ensures Corresponds(PdfScan(p, lines), WordScan(w, lines))
    decreases |lines|
  {
    if |lines| > 0 {
      StepCorresponds(p, w, lines[0]);
      ScanCorresponds(PdfStep(p, lines[0]), WordStep(w, lines[0]), lines[1..]);
    }
  }

  /** The two renderers agree: outside code they place the same elements in the same order,
      and the PDF's code elements, split at their line feeds, are exactly Word's code
      paragraphs. An empty fenced region gives no PDF element and no Word paragraph. */
  lemma PdfAndWordAgree(markdown: string)
    ensures NonCode(PdfBody(markdown)) == NonCode(WordBody(markdown))
    ensures CodeLines(PdfBody(markdown)) == CodeTexts(WordBody(markdown))
  {
    var lines := Split(markdown, '\n');
    ScanCorresponds(PdfState(false, [], []), WordState(false, []), lines);
    var end := PdfScan(PdfState(false, [], []), lines);
    if end.inCode && |end.buffer| > 0 {
      CloseRegion(end.blocks, end.buffer);
    }
  }

  /** The number of lines that are not fences. */
  function NonFenceCount(lines: seq<string>): nat {
    |lines| - FenceCount(lines)
  }

  lemma {:induction false} WordScanLength(st: WordState, lines: seq<string>)
    ensures |WordScan(st, lines).paragraphs| + FenceCount(lines) == |st.paragraphs| + |lines|
    decreases |lines|
  {
    if |lines| > 0 {
      WordScanLength(WordStep(st, lines[0]), lines[1..]);
    }
  }

  /** After the title paragraph and the empty paragraph, the Word document has exactly one
      paragraph for every line that is not a fence. */
  lemma WordOneParagraphPerLine(markdown: string, title: string)
    ensures var lines := Split(markdown, '\n');
      && |WordParagraphs(markdown, title)| == 2 + NonFenceCount(lines)
      && WordParagraphs(markdown, title)[..2] == [Title(title), Spacer]
  {
    var lines := Split(markdown, '\n');
    WordScanLength(WordState(false, []), lines);
  }

  // ---------------------------------------------------------------- one step at a time

  /** A trimmed line, as the loops see it after `Trim`. */
  predicate IsTrimmed(line: string) {
    Trim(line) == line
  }

  lemma PdfClassifies(p: PdfState, line: string)
    requires !p.inCode && IsTrimmed(line) && !IsFence(line)
    ensures PdfStep(p, line) == PdfState(false, p.buffer, p.blocks + [ClassifyLine(line)])
  {
  }

  lemma PdfGathers(p: PdfState, line: string)
    requires p.inCode && IsTrimmed(line) && !IsFence(line)
    ensures PdfStep(p, line) == PdfState(true, p.buffer + [line], p.blocks)
  {
  }

  lemma PdfToggles(p: PdfState, line: string)
    requires IsTrimmed(line) && IsFence(line)
    ensures PdfStep(p, line) == if p.inCode && |p.buffer| > 0 then PdfState(false, [], p.blocks + [CodeBlock(p.buffer)])
                                else PdfState(!p.inCode, p.buffer, p.blocks)
  {
  }

  lemma WordClassifies(w: WordState, line: string)
    requires !w.inCode && IsTrimmed(line) && !IsFence(line)
    ensures WordStep(w, line) == WordState(false, w.paragraphs + [ClassifyLine(line)])
  {
  }

  lemma WordKeepsCode(w: WordState, line: string)
    requires w.inCode && IsTrimmed(line) && !IsFence(line)
    ensures WordStep(w, line) == WordState(true, w.paragraphs + [Code(line)])
  {
  }

  lemma WordToggles(w: WordState, line: string)
    requires IsTrimmed(line) && IsFence(line)
    ensures WordStep(w, line) == WordState(!w.inCode, w.paragraphs)
  {
  }

  // ---------------------------------------------------------------- a fenced example

  /** The shape of the worked example: two lines, a fence holding two lines, and one more line,
      all already trimmed. */
  predicate FencedShape(a: string, b: string, fence: string, c1: string, c2: string, z: string) {
    && IsTrimmed(a) && IsTrimmed(b) && IsTrimmed(fence) && IsTrimmed(c1) && IsTrimmed(c2) && IsTrimmed(z)
    && IsFence(fence) && !IsFence(a) && !IsFence(b) && !IsFence(c1) && !IsFence(c2) && !IsFence(z)
  }

  /** The PDF places the two lines before the fence, then one code element for the fenced
      lines joined with a line feed, then the last line. */
  lemma {:induction false} PdfFenced(a: string, b: string, fence: string, c1: string, c2: string, z: string)
    requires FencedShape(a, b, fence, c1, c2, z)
    ensures PdfScan(PdfState(false, [], []), [a, b, fence, c1, c2, fence, z])
         == PdfState(false, [], [ClassifyLine(a), ClassifyLine(b), Code(c1 + "\n" + c2), ClassifyLine(z)])
  {
    var p0 := PdfState(false, [], []);
    PdfClassifies(p0, a);
    var p1 := PdfStep(p0, a);
    PdfClassifies(p1, b);
    var p2 := PdfStep(p1, b);
    PdfToggles(p2, fence);
    var p3 := PdfStep(p2, fence);
    assert p3 == PdfState(true, [], [ClassifyLine(a), ClassifyLine(b)]);
    PdfFencedTail(p3, fence, c1, c2, z);
    assert p3.blocks + [Code(c1 + "\n" + c2), ClassifyLine(z)]
        == [ClassifyLine(a), ClassifyLine(b), Code(c1 + "\n" + c2), ClassifyLine(z)];
    assert PdfScan(p0, [a, b, fence, c1, c2, fence, z]) == PdfScan(p1, [b, fence, c1, c2, fence, z]);
    assert PdfScan(p1, [b, fence, c1, c2, fence, z]) == PdfScan(p2, [fence, c1, c2, fence, z]);
    assert PdfScan(p2, [fence, c1, c2, fence, z]) == PdfScan(p3, [c1, c2, fence, z]);
  }

  lemma {:induction false} PdfFencedTail(p: PdfState, fence: string, c1: string, c2: string, z: string)
    requires p.inCode && p.buffer == []
    requires IsTrimmed(fence) && IsTrimmed(c1) && IsTrimmed(c2) && IsTrimmed(z)
    requires IsFence(fence) && !IsFence(c1) && !IsFence(c2) && !IsFence(z)
    ensures PdfScan(p, [c1, c2, fence, z]) == PdfState(false, [], p.blocks + [Code(c1 + "\n" + c2), ClassifyLine(z)])
  {
    PdfGathers(p, c1);
    var p4 := PdfStep(p, c1);
    PdfGathers(p4, c2);
    var p5 := PdfStep(p4, c2);
    assert p5.buffer == [c1, c2];
    assert Join(p5.buffer, '\n') == c1 + "\n" + c2;
    PdfToggles(p5, fence);
    var p6 := PdfStep(p5, fence);
    PdfClassifies(p6, z);
    var p7 := PdfStep(p6, z);
    assert PdfScan(p6, [z]) == p7;
    assert PdfScan(p5, [fence, z]) == PdfScan(p6, [z]);
    assert PdfScan(p4, [c2, fence, z]) == PdfScan(p5, [fence, z]);
    assert PdfScan(p, [c1, c2, fence, z]) == PdfScan(p4, [c2, fence, z]);
  }

  /** Word places the two lines before the fence, one code paragraph per fenced line, then the
      last line. */
  lemma {:induction false} WordFenced(a: string, b: string, fence: string, c1: string, c2: string, z: string)
    requires FencedShape(a, b, fence, c1, c2, z)
    ensures WordScan(WordState(false, []), [a, b, fence, c1, c2, fence, z])
         == WordState(false, [ClassifyLine(a), ClassifyLine(b), Code(c1), Code(c2), ClassifyLine(z)])
  {
    var w0 := WordState(false, []);
    WordClassifies(w0, a);
    var w1 := WordStep(w0, a);
    WordClassifies(w1, b);
    var w2 := WordStep(w1, b);
    WordToggles(w2, fence);
    var w3 := WordStep(w2, fence);
    assert w3 == WordState(true, [ClassifyLine(a), ClassifyLine(b)]);
    WordFencedTail(w3, fence, c1, c2, z);
    assert w3.paragraphs + [Code(c1), Code(c2), ClassifyLine(z)]
        == [ClassifyLine(a), ClassifyLine(b), Code(c1), Code(c2), ClassifyLine(z)];
    assert WordScan(w0, [a, b, fence, c1, c2, fence, z]) == WordScan(w1, [b, fence, c1, c2, fence, z]);
    assert WordScan(w1, [b, fence, c1, c2, fence, z]) == WordScan(w2, [fence, c1, c2, fence, z]);
    assert WordScan(w2, [fence, c1, c2, fence, z]) == WordScan(w3, [c1, c2, fence, z]);
  }

  lemma {:induction false} WordFencedTail(w: WordState, fence: string, c1: string, c2: string, z: string)
    requires w.inCode
    requires IsTrimmed(fence) && IsTrimmed(c1) && IsTrimmed(c2) && IsTrimmed(z)
    requires IsFence(fence) && !IsFence(c1) && !IsFence(c2) && !IsFence(z)
    ensures WordScan(w, [c1, c2, fence, z]) == WordState(false, w.paragraphs + [Code(c1), Code(c2), ClassifyLine(z)])
  {
    WordKeepsCode(w, c1);
    var w4 := WordStep(w, c1);
    WordKeepsCode(w4, c2);
    var w5 := WordStep(w4, c2);
    WordToggles(w5, fence);
    var w6 := WordStep(w5, fence);
    WordClassifies(w6, z);
    var w7 := WordStep(w6, z);
    assert WordScan(w6, [z]) == w7;
    assert WordScan(w5, [fence, z]) == WordScan(w6, [z]);
    assert WordScan(w4, [c2, fence, z]) == WordScan(w5, [fence, z]);
    assert WordScan(w, [c1, c2, fence, z]) == WordScan(w4, [c2, fence, z]);
  }

  // ---------------------------------------------------------------- the worked example

  /** The lines of the example document: a heading, a list item, a two-line fence, a paragraph. */
  const SampleLines: seq<string> := ["# T", "- a", "```", "code1", "code2", "```", "para"]

  /** How each line of the example reads once trimmed. */
  lemma SampleHeading()
    ensures IsTrimmed("# T") && !IsFence("# T") && ClassifyLine("# T") == Heading(1, "T")
  {
    TrimOfTrimmed("# T");
    assert "# T"[2..] == "T";
    assert "# T"[1] != "```"[1];
  }

  lemma SampleListItem()
    ensures IsTrimmed("- a") && !IsFence("- a") && ClassifyLine("- a") == ListItem(Bullet + "a")
  {
    TrimOfTrimmed("- a");
    assert "- a"[2..] == "a";
    assert "- a"[0] != "```"[0];
  }

  lemma SampleParagraph()
    ensures IsTrimmed("para") && !IsFence("para") && ClassifyLine("para") == Paragraph("para")
  {
    TrimOfTrimmed("para");
    assert !IsBlank("para") by {
      assert !IsWhiteSpace("para"[0]);
    }
    Unmarked("para");
  }

  /** A line opening with a letter is neither a fence, a heading nor a list item. */
  lemma Unmarked(line: string)
    requires |line| > 0 && 'a' <= line[0] <= 'z'
    ensures !IsFence(line) && !IsListMarked(line)
    ensures forall n | 1 <= n <= 3 :: !StartsWith(line, HeadingMarker(n))
  {
  }

  lemma SampleCode()
    ensures IsTrimmed("```") && IsFence("```")
    ensures IsTrimmed("code1") && !IsFence("code1")
    ensures IsTrimmed("code2") && !IsFence("code2")
  {
    TrimOfTrimmed("```");
    TrimOfTrimmed("code1");
    TrimOfTrimmed("code2");
    Unmarked("code1");
    Unmarked("code2");
  }

  lemma SampleSplit()
    ensures Split(Join(SampleLines, '\n'), '\n') == SampleLines
  {
    forall i | 0 <= i < |SampleLines| ensures '\n' !in SampleLines[i] {
    }
    SplitJoin(SampleLines, '\n');
  }

  /** The PDF groups the fenced lines of the example into one code element. */
  lemma SamplePdf()
    ensures PdfBody(Join(SampleLines, '\n'))
         == [Heading(1, "T"), ListItem(Bullet + "a"), Code("code1" + "\n" + "code2"), Paragraph("para")]
  {
    SampleSplit();
    SampleHeading();
    SampleListItem();
    SampleParagraph();
    SampleCode();
    PdfFenced("# T", "- a", "```", "code1", "code2", "para");
  }

  /** Word gives each fenced line of the example its own code paragraph. */
  lemma SampleWord()
    ensures WordBody(Join(SampleLines, '\n'))
         == [Heading(1, "T"), ListItem(Bullet + "a"), Code("code1"), Code("code2"), Paragraph("para")]
  {
    SampleSplit();
    SampleHeading();
    SampleListItem();
    SampleParagraph();
    SampleCode();
    WordFenced("# T", "- a", "```", "code1", "code2", "para");
  }
}

=== FILE: limits.dfy ===
/**
  `DocumentLimitService`: whether an owner may create another document, as a
  pure function of the presented e-mail address and the owner's current count.
*/
module DocumentLimits {
  import opened Text
  import opened Documents

  /** Documents a regular owner may hold. */
  const DefaultLimit: nat := 500

  /** The one address exempt from the quota, compared ignoring case. */
  const UnlimitedEmail: string := "expertsanoy@gmail.com"

  /** The `limit` reported for the exempt address. */
  const UnlimitedSentinel: int := -1

  /** The `(allowed, currentCount, limit)` triple of `CheckDocumentLimitAsync`. */
  datatype LimitCheck = LimitCheck(allowed: bool, currentCount: nat, limit: int)

  predicate IsUnlimited(userEmail: string) {
    EqualsIgnoreCase(userEmail, UnlimitedEmail)
  }

  /** `CheckDocumentLimitAsync` given the owner's current count. */
  function CheckDocumentLimit(userEmail: string, count: nat): (r: LimitCheck)
    ensures r.currentCount == count
    ensures IsUnlimited(userEmail) ==> r.allowed && r.limit == UnlimitedSentinel
    ensures !IsUnlimited(userEmail) ==> r.limit == DefaultLimit && (r.allowed <==> count < DefaultLimit)
  {
    if IsUnlimited(userEmail) then LimitCheck(true, count, UnlimitedSentinel)
    else LimitCheck(count < DefaultLimit, count, DefaultLimit)
  }

  /** `CheckDocumentLimitAsync` against the table: it reads the count of `userId`'s rows. */
  function CheckStore(store: Store, userEmail: string, userId: string): (r: LimitCheck)
    ensures r.currentCount == DocumentCount(store, userId)
  {
    CheckDocumentLimit(userEmail, DocumentCount(store, userId))
  }

  /** Addresses that differ only in letter case get the same answer. */
  lemma CheckIgnoresCase(e1: string, e2: string, count: nat)
    requires EqualsIgnoreCase(e1, e2)
    ensures CheckDocumentLimit(e1, count) == CheckDocumentLimit(e2, count)
  {
    if IsUnlimited(e1) {
      assert IsUnlimited(e2);
    } else if IsUnlimited(e2) {
      EqualsIgnoreCaseEuclidean(e1, e2, UnlimitedEmail);
    }
  }

  /** Creation is allowed exactly for the exempt address or below the default limit,
      and a refusal always reports the default limit. */
  lemma AllowedExactly(userEmail: string, count: nat)
    ensures CheckDocumentLimit(userEmail, count).allowed <==> IsUnlimited(userEmail) || count < DefaultLimit
    ensures !CheckDocumentLimit(userEmail, count).allowed ==> CheckDocumentLimit(userEmail, count).limit == DefaultLimit
  {
  }
}

=== FILE: service.dfy ===
/**
  `DocumentService`: owner-scoped listing, lookup, save (update or quota-checked
  create) and delete, as atomic transitions of the table. The clock readings and
  the freshly generated id are parameters.
*/
module DocumentService {
  import opened Wrappers
  import opened Documents
  import opened DocumentLimits

  /** Why a save did not happen. `NotFoundOrAccessDenied` and `LimitReached` are the
      service's `InvalidOperationException`s; `StoreRejected` is the database refusing
      the write (a key already taken, a value over its column width with more than spaces
      past it, or a text value holding U+0000). */
  datatype SaveError = NotFoundOrAccessDenied | LimitReached(limit: int) | StoreRejected

  datatype SaveResult = Saved(document: Document) | SaveFailed(error: SaveError)

  /** The table after a save, and what the save returned. */
  datatype SaveOutcome = SaveOutcome(store: Store, result: SaveResult)

  /** The table after a delete, and whether a row was removed. */
  datatype DeleteOutcome = DeleteOutcome(store: Store, deleted: bool)

  /** The row `id` belongs to `userId`. */
  predicate OwnedBy(store: Store, id: Id, userId: string) {
    id in store && store[id].userId == userId
  }

  /** `documentId.HasValue && documentId.Value != Guid.Empty`: the save is an update. */
  predicate IsUpdate(documentId: Option<Id>) {
    documentId.Some? && documentId.value != EmptyId
  }

  /** The fields that a save never changes on an existing row. */
  predicate SameIdentity(before: Document, after: Document) {
    && after.id == before.id
    && after.userId == before.userId
    && after.userEmail == before.userEmail
    && after.createdAt == before.createdAt
  }

  /** `GetDocumentAsync`: the row with this id, only when `userId` owns it. */
  function GetDocument(store: Store, id: Id, userId: string): (r: Option<Document>)
    ensures r.Some? <==> OwnedBy(store, id, userId)
    ensures r.Some? ==> r.value == store[id] && r.value.id == id
  {
    if OwnedBy(store, id, userId) then Some(store[id]) else None
  }

  /** `SaveDocumentAsync`. An update reads the clock once (`now`); a create reads it
      twice (`now` for `CreatedAt`, `later` for `UpdatedAt`) and stores the row under
      `freshId`, the `Guid.NewGuid()` of the new `Document`. The returned document is the
      tracked entity as written; the table holds it cut to the column widths. */
  function SaveDocument(store: Store, userId: string, userEmail: string, title: string, content: string,
                        documentId: Option<Id>, now: Time, later: Time, freshId: Id): (r: SaveOutcome)
    // A failed save writes nothing; a successful one writes exactly the returned row, as the table holds it.
    ensures r.result.SaveFailed? ==> r.store == store
    ensures IsUpdate(documentId) && r.result.Saved? ==>
              && OwnedBy(store, documentId.value, userId)
              && r.store == store[documentId.value := Edited(store[documentId.value], title, content, now)]
    ensures !IsUpdate(documentId) && r.result.Saved? ==> r.store == store[freshId := AsStored(r.result.document)]
    ensures r.result.Saved? ==> EditStorable(title, content)
    ensures r.result.Saved? ==> r.result.document.title == title && r.result.document.content == content
    // Update: only an owned row is touched, and only its title, content and update time.
    ensures IsUpdate(documentId) && !OwnedBy(store, documentId.value, userId) ==>
              r.result == SaveFailed(NotFoundOrAccessDenied)
    ensures IsUpdate(documentId) && r.result.Saved? ==>
              && r.result.document.id == documentId.value
              && OwnedBy(store, documentId.value, userId)
              && SameIdentity(store[documentId.value], r.result.document)
              && r.result.document.updatedAt == now
    ensures IsUpdate(documentId) ==> !(r.result.SaveFailed? && r.result.error.LimitReached?)
    // An owned row is updated exactly when the database accepts the values written; otherwise the write is refused.
    ensures IsUpdate(documentId) && OwnedBy(store, documentId.value, userId) ==>
              && (r.result.Saved? <==> EditStorable(title, content))
              && (r.result.SaveFailed? ==> r.result.error == StoreRejected)
    // Create: refused by the quota, or a brand-new row with the caller's identity.
    ensures !IsUpdate(documentId) && !CheckStore(store, userEmail, userId).allowed ==>
              r.result == SaveFailed(LimitReached(DefaultLimit))
    ensures !IsUpdate(documentId) && r.result.Saved? ==>
              && CheckStore(store, userEmail, userId).allowed
              && freshId !in store
              && r.result.document == Document(freshId, userId, userEmail, title, content, now, later)
    ensures !IsUpdate(documentId) ==> r.result != SaveFailed(NotFoundOrAccessDenied)
    // A create the quota allows is written exactly when its key is unused and the database accepts the row.
    ensures !IsUpdate(documentId) && CheckStore(store, userEmail, userId).allowed ==>
              && (r.result.Saved? <==>
                    freshId !in store && Storable(Document(freshId, userId, userEmail, title, content, now, later)))
              && (r.result.SaveFailed? ==> r.result.error == StoreRejected)
  {
    if IsUpdate(documentId) then
      var id := documentId.value;
      if !OwnedBy(store, id, userId) then
        SaveOutcome(store, SaveFailed(NotFoundOrAccessDenied))
      else
        var updated := store[id].(title := title, content := content, updatedAt := now);
        if !EditStorable(title, content) then SaveOutcome(store, SaveFailed(StoreRejected))
        else SaveOutcome(store[id := Edited(store[id], title, content, now)], Saved(updated))
    else
      var check := CheckStore(store, userEmail, userId);
      if !check.allowed then
        SaveOutcome(store, SaveFailed(LimitReached(check.limit)))
      else
        var created := Document(freshId, userId, userEmail, title, content, now, later);
        if freshId in store || !Storable(created) then SaveOutcome(store, SaveFailed(StoreRejected))
        else SaveOutcome(store[freshId := AsStored(created)], Saved(created))
  }

  /** `DeleteDocumentAsync`: removes the row only when `userId` owns it. */
  function DeleteDocument(store: Store, id: Id, userId: string): (r: DeleteOutcome)
    ensures r.deleted <==> OwnedBy(store, id, userId)
    ensures r.deleted ==> r.store == store - {id}
    ensures !r.deleted ==> r.store == store
    ensures id !in r.store || r.store[id].userId != userId
  {
    if OwnedBy(store, id, userId) then DeleteOutcome(store - {id}, true)
    else DeleteOutcome(store, false)
  }

  /** Newest first: `UpdatedAt` never increases along the sequence. */
  predicate NewestFirst(docs: seq<Document>) {
    forall i, j | 0 <= i < j < |docs| :: docs[i].updatedAt >= docs[j].updatedAt
  }

  /** Places `d` in a newest-first sequence. */
  function InsertNewestFirst(docs: seq<Document>, d: Document): (r: seq<Document>)
    requires NewestFirst(docs)
    ensures NewestFirst(r)
    ensures |r| == |docs| + 1
    ensures forall x :: x in r <==> x in docs || x == d
    ensures multiset(r) == multiset(docs) + multiset{d}
  {
    if |docs| == 0 || d.updatedAt >= docs[0].updatedAt then
      PrependNewest(d, docs);
      Prepended(d, docs);
      [d] + docs
    else
      var rest := InsertNewestFirst(docs[1..], d);
      HeadBoundsRest(docs, d, rest);
      PrependNewest(docs[0], rest);
      Prepended(docs[0], rest);
      Prepended(docs[0], docs[1..]);
      assert docs == [docs[0]] + docs[1..];
      [docs[0]] + rest
  }

  /** What putting one row in front of a sequence does to its length, members and multiset. */
  lemma Prepended(x: Document, docs: seq<Document>)
    ensures |[x] + docs| == |docs| + 1
    ensures forall y :: y in [x] + docs <==> y == x || y in docs
    ensures multiset([x] + docs) == multiset{x} + multiset(docs)
  {
  }

  /** A row no older than any row of a newest-first sequence may go in front of it. */
  lemma PrependNewest(x: Document, docs: seq<Document>)
    requires NewestFirst(docs)
    requires forall j | 0 <= j < |docs| :: x.updatedAt >= docs[j].updatedAt
    ensures NewestFirst([x] + docs)
  {
  }

  lemma HeadBoundsRest(docs: seq<Document>, d: Document, rest: seq<Document>)
    requires NewestFirst(docs) && |docs| > 0 && d.updatedAt < docs[0].updatedAt
    requires forall x :: x in rest <==> x in docs[1..] || x == d
    ensures forall j | 0 <= j < |rest| :: docs[0].updatedAt >= rest[j].updatedAt
  {
    forall j | 0 <= j < |rest| ensures docs[0].updatedAt >= rest[j].updatedAt {
      assert rest[j] in rest;
    }
  }

  /** `GetUserDocumentsAsync`: every row of `userId` exactly once, newest first.
      Rows with equal `UpdatedAt` may come in any order. */
  method GetUserDocuments(store: Store, userId: string) returns (docs: seq<Document>)
    ensures NewestFirst(docs)
    ensures |docs| == DocumentCount(store, userId)
    ensures forall i | 0 <= i < |docs| :: OwnedBy(store, docs[i].id, userId) && store[docs[i].id] == docs[i]
    ensures forall k | OwnedBy(store, k, userId) :: store[k] in docs
  {
    var owned := OwnedIds(store, userId);
    var pending := owned;
    docs := [];
    while pending != {}
      invariant pending <= owned
      invariant NewestFirst(docs)
      invariant |docs| + |pending| == |owned|
      invariant forall i | 0 <= i < |docs| ::
                  docs[i].id in owned && docs[i].id !in pending && store[docs[i].id] == docs[i]
      invariant forall k | k in owned && k !in pending :: store[k] in docs
      decreases |pending|
    {
      var k :| k in pending;
      var next := InsertNewestFirst(docs, store[k]);
      forall i | 0 <= i < |next|
        ensures next[i].id in owned && next[i].id !in pending - {k} && store[next[i].id] == next[i]
      {
        assert next[i] in next;
        if next[i] != store[k] {
          var j :| 0 <= j < |docs| && docs[j] == next[i];
        }
      }
      docs, pending := next, pending - {k};
    }
  }

  /** One request of the document API, as seen by the service. */
  datatype Request =
    | SaveRequest(userId: string, userEmail: string, title: string, content: string,
                  documentId: Option<Id>, now: Time, later: Time, freshId: Id)
    | DeleteRequest(id: Id, userId: string)

  /** The table after one request. */
  function Apply(store: Store, req: Request): Store {
    match req
    case SaveRequest(u, e, t, c, id, now, later, newId) =>
      SaveDocument(store, u, e, t, c, id, now, later, newId).store
    case DeleteRequest(id, u) => DeleteDocument(store, id, u).store
  }

  /** The table after a sequence of requests served one at a time. */
  function Run(store: Store, reqs: seq<Request>): Store
    decreases |reqs|
  {
    if |reqs| == 0 then store else Run(Apply(store, reqs[0]), reqs[1..])
  }

  /** Every save made by `userId` presents an address that is not exempt, and every save
      presents an owner id within its column width (so no row lands under a cut id). */
  predicate QuotaBound(reqs: seq<Request>, userId: string) {
    && (forall i | 0 <= i < |reqs| && reqs[i].SaveRequest? && reqs[i].userId == userId ::
          !IsUnlimited(reqs[i].userEmail))
    && (forall i | 0 <= i < |reqs| && reqs[i].SaveRequest? :: |reqs[i].userId| <= MaxUserIdLength)
  }

  function Max(a: nat, b: nat): nat {
    if a < b then b else a
  }

  /** One request never pushes a quota-bound owner above the default limit
      (or above the count the owner already had). */
  lemma ApplyRespectsQuota(store: Store, req: Request, userId: string)
    requires req.SaveRequest? && req.userId == userId ==> !IsUnlimited(req.userEmail)
    requires req.SaveRequest? ==> |req.userId| <= MaxUserIdLength
    ensures DocumentCount(Apply(store, req), userId) <= Max(DocumentCount(store, userId), DefaultLimit)
  {
    match req
    case SaveRequest(u, e, t, c, id, now, later, newId) =>
      var out := SaveDocument(store, u, e, t, c, id, now, later, newId);
      if out.result.Saved? {
        var d := out.result.document;
        if IsUpdate(id) {
          CountAfterReplace(store, Edited(store[d.id], t, c, now), userId);
        } else {
          CountAfterInsert(store, AsStored(d), userId);
        }
      }
    case DeleteRequest(id, u) =>
      if OwnedBy(store, id, u) {
        CountAfterRemove(store, id, userId);
      }
  }

  /** Under sequential use, an owner whose saves never present the exempt address never
      holds more than the default limit, unless it already held more before. */
  lemma {:induction false} RunRespectsQuota(store: Store, reqs: seq<Request>, userId: string)
    requires QuotaBound(reqs, userId)
    ensures DocumentCount(Run(store, reqs), userId) <= Max(DocumentCount(store, userId), DefaultLimit)
    decreases |reqs|
  {
    if |reqs| > 0 {
      ApplyRespectsQuota(store, reqs[0], userId);
      var next := Apply(store, reqs[0]);
      assert QuotaBound(reqs[1..], userId) by {
        forall i | 0 <= i < |reqs[1..]| && reqs[1..][i].SaveRequest? && reqs[1..][i].userId == userId
          ensures !IsUnlimited(reqs[1..][i].userEmail)
        {
          assert reqs[1..][i] == reqs[i + 1];
        }
        forall i | 0 <= i < |reqs[1..]| && reqs[1..][i].SaveRequest?
          ensures |reqs[1..][i].userId| <= MaxUserIdLength
        {
          assert reqs[1..][i] == reqs[i + 1];
        }
      }
      RunRespectsQuota(next, reqs[1..], userId);
    }
  }

  /** A create the quota allows, under an unused key, of a row the database accepts, is saved:
      the owner gains exactly one row, and it reads back with the given content and with each
      bounded column cut to its width. */
  lemma CreateThenGet(store: Store, userId: string, userEmail: string, title: string, content: string,
                      documentId: Option<Id>, now: Time, later: Time, freshId: Id)
    requires !IsUpdate(documentId) && |userId| <= MaxUserIdLength
    requires CheckStore(store, userEmail, userId).allowed && freshId !in store
    requires Storable(Document(freshId, userId, userEmail, title, content, now, later))
    ensures var out := SaveDocument(store, userId, userEmail, title, content, documentId, now, later, freshId);
      && out.result == Saved(Document(freshId, userId, userEmail, title, content, now, later))
      && DocumentCount(out.store, userId) == DocumentCount(store, userId) + 1
      && GetDocument(out.store, freshId, userId) == Some(AsStored(out.result.document))
  {
    var out := SaveDocument(store, userId, userEmail, title, content, documentId, now, later, freshId);
    CountAfterInsert(store, AsStored(out.result.document), userId);
  }

  /** An owner id longer than its column is accepted only when the excess is spaces, and then
      the row is stored under the cut id: the owner who created it cannot read it back, and it
      does not count towards that owner's quota. */
  lemma OverWidthOwnerLosesRow(store: Store, userId: string, userEmail: string, title: string, content: string,
                               now: Time, later: Time, freshId: Id)
    requires |userId| > MaxUserIdLength
    ensures var out := SaveDocument(store, userId, userEmail, title, content, None, now, later, freshId);
      && (out.result.Saved? ==> out.store[freshId].userId == userId[..MaxUserIdLength])
      && (out.result.Saved? ==> GetDocument(out.store, freshId, userId).None?)
      && DocumentCount(out.store, userId) == DocumentCount(store, userId)
  {
    var out := SaveDocument(store, userId, userEmail, title, content, None, now, later, freshId);
    if out.result.Saved? {
      var d := AsStored(out.result.document);
      assert d.userId != userId by {
        assert |d.userId| <= MaxUserIdLength < |userId|;
      }
      OthersKeepRows(store, d, userId);
    }
  }

  /** An update of an owned row with values the database accepts is saved: the owner's count
      does not change, and the row reads back with the new content, the new title cut to its
      width, and the update time to the microsecond. */
  lemma UpdateThenGet(store: Store, userId: string, userEmail: string, title: string, content: string,
                      id: Id, now: Time, later: Time, freshId: Id)
    requires id != EmptyId && OwnedBy(store, id, userId)
    requires EditStorable(title, content)
    ensures var out := SaveDocument(store, userId, userEmail, title, content, Some(id), now, later, freshId);
      && out.result.Saved?
      && DocumentCount(out.store, userId) == DocumentCount(store, userId)
      && GetDocument(out.store, id, userId)
         == Some(store[id].(title := CutToWidth(title, MaxTitleLength), content := content,
                            updatedAt := ColumnTime(now)))
  {
    var out := SaveDocument(store, userId, userEmail, title, content, Some(id), now, later, freshId);
    CountAfterReplace(store, Edited(store[id], title, content, now), userId);
  }

  /** A create whose title does not fit its column is refused and writes nothing: by the quota
      when the owner is at the limit, by the database otherwise. */
  lemma OverlongCreateRefused(store: Store, userId: string, userEmail: string, title: string, content: string,
                              documentId: Option<Id>, now: Time, later: Time, freshId: Id)
    requires !IsUpdate(documentId) && !FitsWidth(title, MaxTitleLength)
    ensures SaveDocument(store, userId, userEmail, title, content, documentId, now, later, freshId)
         == SaveOutcome(store, if CheckStore(store, userEmail, userId).allowed then SaveFailed(StoreRejected)
                               else SaveFailed(LimitReached(DefaultLimit)))
  {
  }

  /** For an owner at the limit, a create with a regular address is refused and writes nothing;
      with the exempt address it is not refused by the quota. */
  lemma CreateAtLimit(store: Store, userId: string, userEmail: string, title: string, content: string,
                      now: Time, later: Time, freshId: Id)
    requires DocumentCount(store, userId) >= DefaultLimit
    ensures var out := SaveDocument(store, userId, userEmail, title, content, None, now, later, freshId);
      && (!IsUnlimited(userEmail) ==> out.result == SaveFailed(LimitReached(DefaultLimit)) && out.store == store)
      && (IsUnlimited(userEmail) ==> out.result != SaveFailed(LimitReached(DefaultLimit)))
  {
  }

  /** Deleting twice: the second delete finds nothing and changes nothing. */
  lemma DeleteIdempotent(store: Store, id: Id, userId: string)
    ensures var once := DeleteDocument(store, id, userId);
      var twice := DeleteDocument(once.store, id, userId);
      !twice.deleted && twice.store == once.store
  {
  }

  /** Another owner's row is indistinguishable from a missing one: get, delete and update
      answer exactly as if the row did not exist, and nothing is written. */
  lemma ForeignRowLooksMissing(store: Store, id: Id, userId: string, userEmail: string,
                               title: string, content: string, now: Time, later: Time, freshId: Id)
    requires id in store && store[id].userId != userId && id != EmptyId
    ensures var hidden: Store := store - {id};
      && GetDocument(store, id, userId) == GetDocument(hidden, id, userId) == None
      && DeleteDocument(store, id, userId).deleted == DeleteDocument(hidden, id, userId).deleted == false
      && DeleteDocument(store, id, userId).store == store
      && SaveDocument(store, userId, userEmail, title, content, Some(id), now, later, freshId).result
         == SaveDocument(hidden, userId, userEmail, title, content, Some(id), now, later, freshId).result
         == SaveFailed(NotFoundOrAccessDenied)
      && SaveDocument(store, userId, userEmail, title, content, Some(id), now, later, freshId).store == store
  {
  }

  /** Requests made by one owner leave every row of every other owner exactly as it was. */
  lemma OtherOwnersUntouched(store: Store, req: Request, k: Id)
    requires OwnedBy(store, k, OwnerOf(req)) == false && k in store
    ensures k in Apply(store, req) && Apply(store, req)[k] == store[k]
  {
  }

  function OwnerOf(req: Request): string {
    match req
    case SaveRequest(u, _, _, _, _, _, _, _) => u
    case DeleteRequest(_, u) => u
  }

  /** Saves and deletes keep every row one the database accepts, within its column widths. */
  lemma {:induction false} RunKeepsRowsStorable(store: Store, reqs: seq<Request>)
    requires AllStorable(store)
    ensures AllStorable(Run(store, reqs))
    decreases |reqs|
  {
    if |reqs| > 0 {
      var next := Apply(store, reqs[0]);
      assert AllStorable(next);
      RunKeepsRowsStorable(next, reqs[1..]);
    }
  }
}

=== FILE: startup.dfy ===
/**
  The two pieces of string handling in `Program.cs`: the host named by a
  connection string, shown in the startup log, and the fallback reader of the
  `.env` file, which merges `KEY=value` lines into the process environment.
  The file is given as its lines and the environment as a map; the reading of
  the file and the `DotNetEnv` loader that runs before this reader are not
  modelled (whatever that loader set is part of the starting map).
*/
module Startup {
  import opened Wrappers
  import opened Text

  // ---------------------------------------------------------------- the host of a connection string

  const HostKey: string := "Host="
  const UnknownHost: string := "unknown"

  /** The index of the first piece that opens with `Host=` in any letter case, or the number of
      pieces when none does. */
  function FirstHostPiece(parts: seq<string>): (i: nat)
    ensures i <= |parts|
    ensures forall j | 0 <= j < i :: !StartsWithIgnoreCase(parts[j], HostKey)
    ensures i < |parts| ==> StartsWithIgnoreCase(parts[i], HostKey)
  {
    if |parts| == 0 || StartsWithIgnoreCase(parts[0], HostKey) then 0
    else 1 + FirstHostPiece(parts[1..])
  }

  /** The search `FirstOrDefault` makes over the pieces, with the fallback applied. */
  function HostOf(parts: seq<string>): (host: string)
    ensures var i := FirstHostPiece(parts);
      && (i == |parts| ==> host == UnknownHost)
      && (i < |parts| ==> host == parts[i][|HostKey|..])
  {
    if |parts| == 0 then UnknownHost
    else if StartsWithIgnoreCase(parts[0], HostKey) then parts[0][|HostKey|..]
    else HostOf(parts[1..])
  }

  /** `ExtractHostFromConnectionString`: what follows `Host=` in the first `;`-separated piece
      that opens with it, or `unknown`. The result never holds a `;`. */
  function ExtractHost(connectionString: string): (host: string)
    ensures var parts := Split(connectionString, ';');
      var i := FirstHostPiece(parts);
      && (i == |parts| ==> host == UnknownHost)
      && (i < |parts| ==> host == parts[i][|HostKey|..])
    ensures ';' !in host
  {
    var parts := Split(connectionString, ';');
    var host := HostOf(parts);
    assert ';' !in host by {
      var i := FirstHostPiece(parts);
      if i < |parts| {
        assert forall c | c in parts[i][|HostKey|..] :: c in parts[i];
      }
    }
    host
  }

  /** The connection string assembled from the individual PostgreSQL variables. */
  function ConnectionString(host: string, port: string, database: string, user: string,
                            password: string, sslMode: string): string {
    HostKey + host + ";" + ConnectionSettings(port, database, user, password, sslMode)
  }

  /** The pieces after the host. */
  function ConnectionSettings(port: string, database: string, user: string, password: string,
                              sslMode: string): string {
    "Port=" + port + ";Database=" + database + ";Username=" + user + ";Password=" + password
    + ";SslMode=" + sslMode
  }

  /** The logged host of an assembled connection string is the host it was built from, provided
      that host holds no `;`. */
  lemma HostRoundTrip(host: string, port: string, database: string, user: string,
                      password: string, sslMode: string)
    requires ';' !in host
    ensures ExtractHost(ConnectionString(host, port, database, user, password, sslMode)) == host
  {
    var first := HostKey + host;
    var rest := ConnectionSettings(port, database, user, password, sslMode);
    assert ';' !in first;
    SplitFront(first, ';', rest);
    assert first[..|HostKey|] == HostKey;
    assert first[|HostKey|..] == host;
  }

  /** The key is matched in any letter case. */
  lemma HostKeyIgnoresCase(host: string)
    requires ';' !in host
    ensures ExtractHost("host=" + host) == host
  {
    var cs := "host=" + host;
    assert Split(cs, ';') == [cs] by {
      assert IndexOf(cs, ';') == -1;
    }
    assert cs[..|HostKey|] == "host=";
    assert cs[|HostKey|..] == host;
  }

  /** A connection string with no `Host=` piece logs `unknown`. */
  lemma NoHostIsUnknown(connectionString: string)
    requires forall j | 0 <= j < |Split(connectionString, ';')| ::
               !StartsWithIgnoreCase(Split(connectionString, ';')[j], HostKey)
    ensures ExtractHost(connectionString) == UnknownHost
  {
  }

  // ---------------------------------------------------------------- one line of the .env file

  /** What one line of the file amounts to: nothing, a key with its value, or the exception
      `Substring(1, -1)` raises on a value that is a lone quote. */
  datatype EnvLine = Ignored | Pair(key: string, value: string) | SubstringFault

  /** Strips one pair of the quote `q` from around a value. A value that both opens and closes
      with `q` loses its first and last character; a value that is the lone character `q` opens
      and closes with it too, and asking for a substring of length -1 fails (`None`). */
  function StripQuote(value: string, q: char): (r: Option<string>)
    ensures r.None? <==> value == [q]
    ensures r.Some? ==> |r.value| <= |value|
    ensures r.Some? && |r.value| < |value| ==> value == [q] + r.value + [q]
    ensures !(StartsWith(value, [q]) && EndsWith(value, [q])) ==> r == Some(value)
    ensures StartsWith(value, [q]) && EndsWith(value, [q]) && |value| >= 2 ==> r == Some(value[1..|value| - 1])
  {
    if StartsWith(value, [q]) && EndsWith(value, [q]) then
      if |value| < 2 then None
      else
        assert value == [q] + value[1..|value| - 1] + [q];
        Some(value[1..|value| - 1])
    else Some(value)
  }

  /** Double quotes are stripped first, then single quotes from what is left. */
  function Unquote(value: string): (r: Option<string>) {
    match StripQuote(value, '"')
    case None => None
    case Some(v) => StripQuote(v, '\'')
  }

  /** A `#` opens a comment line. */
  predicate IsComment(trimmed: string) {
    StartsWith(trimmed, "#")
  }

  /** One pass of the reading loop over one line: trim, then read the trimmed text. */
  function ParseEnvLine(line: string): (r: EnvLine)
    ensures IsBlank(line) || IsComment(Trim(line)) ==> r == Ignored
    ensures '=' !in line ==> r == Ignored
    ensures r.Pair? ==> r.key != [] && '=' !in r.key && r.key[0] != '#'
    ensures r.Pair? ==> !IsWhiteSpace(r.key[0]) && !IsWhiteSpace(r.key[|r.key| - 1])
  {
    ParseTrimmed(Trim(line))
  }

  /** The trimmed line: pass over empty and comment lines; split at the first `=` when it is
      not the first character; trim both sides; strip quotes. */
  function ParseTrimmed(t: string): (r: EnvLine)
    requires t == [] || !IsWhiteSpace(t[0])
    ensures t == [] || IsComment(t) ==> r == Ignored
    ensures '=' !in t ==> r == Ignored
    ensures r.Pair? ==> r.key != [] && '=' !in r.key && r.key[0] != '#'
    ensures r.Pair? ==> !IsWhiteSpace(r.key[0]) && !IsWhiteSpace(r.key[|r.key| - 1])
  {
    if t == [] || IsComment(t) then Ignored
    else
      var eq := IndexOf(t, '=');
      if eq <= 0 then Ignored
      else
        KeyFacts(t, eq);
        Assignment(Trim(t[..eq]), Trim(t[eq + 1..]))
  }

  /** The key with its value once the quotes are stripped, or the fault stripping raises. */
  function Assignment(key: string, value: string): (r: EnvLine)
    ensures r.Pair? ==> r.key == key
  {
    match Unquote(value)
    case None => SubstringFault
    case Some(v) => Pair(key, v)
  }

  /** A line whose text opens with `=` has no key and is passed over. */
  lemma LeadingEqualsIgnored(line: string)
    requires StartsWith(Trim(line), "=")
    ensures ParseEnvLine(line) == Ignored
  {
    var t := Trim(line);
    assert t[0] == '=';
    assert IndexOf(t, '=') == 0;
  }

  /** The text before the first `=` of a trimmed line that is not a comment trims to a name
      with text at both ends, holding no `=` and not opening with `#`. */
  lemma KeyFacts(t: string, eq: nat)
    requires t != [] && !IsWhiteSpace(t[0]) && !IsComment(t)
    requires 0 < eq <= |t| && '=' !in t[..eq]
    ensures var key := Trim(t[..eq]);
      && key != [] && '=' !in key && key[0] != '#'
      && !IsWhiteSpace(key[0]) && !IsWhiteSpace(key[|key| - 1])
  {
    var key := Trim(t[..eq]);
    TrimOfStart(t[..eq]);
    assert forall c | c in key :: c in t[..eq];
    assert t[..1] == [t[0]];
  }

  /** Trimming a string whose first character is not white space keeps that first character. */
  lemma TrimOfStart(s: string)
    requires s != [] && !IsWhiteSpace(s[0])
    ensures Trim(s) != [] && Trim(s)[0] == s[0]
  {
    assert !IsBlank(s);
  }

  /** A value that opens with neither kind of quote is taken as it stands. */
  predicate Unquoted(value: string) {
    value == [] || (value[0] != '"' && value[0] != '\'')
  }

  /** A trimmed string: empty, or with text at both ends. */
  predicate Trimmed(s: string) {
    s == [] || (!IsWhiteSpace(s[0]) && !IsWhiteSpace(s[|s| - 1]))
  }

  /** A name that can stand before the `=` of an assignment line. */
  predicate ValidKey(key: string) {
    key != [] && Trimmed(key) && '=' !in key && key[0] != '#'
  }

  /** An assignment line splits at its first `=` into the key and the value, and the value is
      then unquoted. */
  lemma ParseOfAssignment(key: string, value: string)
    requires ValidKey(key) && Trimmed(value)
    ensures ParseEnvLine(key + "=" + value)
         == if Unquote(value).None? then SubstringFault else Pair(key, Unquote(value).value)
  {
    var line := key + "=" + value;
    assert line[0] == key[0];
    assert line[|line| - 1] == if value == [] then '=' else value[|value| - 1];
    TrimOfTrimmed(line);
    AssignmentParts(key, value, line);
  }

  /** Where an assignment line splits, and what its two halves trim to. */
  lemma AssignmentParts(key: string, value: string, line: string)
    requires ValidKey(key) && Trimmed(value)
    requires line == key + "=" + value
    ensures IndexOf(line, '=') == |key|
    ensures Trim(line[..|key|]) == key && Trim(line[|key| + 1..]) == value
    ensures !IsComment(line)
  {
    assert line[|key|] == '=';
    assert line[..|key|] == key;
    assert line[|key| + 1..] == value;
    assert line[..1] == key[..1];
    TrimOfTrimmed(key);
    TrimOfTrimmed(value);
  }

  /** `KEY=value` reads back as the key and the value; later `=` characters stay in the value. */
  lemma ParseAssignment(key: string, value: string)
    requires ValidKey(key)
    requires Trimmed(value) && Unquoted(value)
    ensures ParseEnvLine(key + "=" + value) == Pair(key, value)
  {
    ParseOfAssignment(key, value);
    UnquoteUnquoted(value);
  }

  lemma UnquoteUnquoted(value: string)
    requires Unquoted(value)
    ensures Unquote(value) == Some(value)
  {
    if value != [] {
      assert value[..1] == [value[0]];
    }
  }

  /** White space around the line, the key and the value does not matter: `  KEY = value  `
      reads as `KEY=value`. */
  lemma ParsePadded(ws0: string, key: string, ws1: string, ws2: string, value: string, ws3: string)
    requires IsBlank(ws0) && IsBlank(ws1) && IsBlank(ws2) && IsBlank(ws3)
    requires ValidKey(key) && Trimmed(value)
    ensures ParseEnvLine(ws0 + key + ws1 + "=" + ws2 + value + ws3)
         == if Unquote(value).None? then SubstringFault else Pair(key, Unquote(value).value)
  {
    var line := ws0 + key + ws1 + "=" + ws2 + value + ws3;
    var tail := if value == [] then [] else ws2 + value;
    var t := key + ws1 + "=" + tail;
    PaddedLineTrims(ws0, key, ws1, ws2, value, ws3, t);
    assert Trim(tail) == value by {
      if value != [] {
        assert tail == ws2 + value + [];
        TrimPadded(ws2, value, []);
      }
    }
    PaddedParts(key, ws1, tail, t);
    ParseAtSplit(line, t, |key| + |ws1|, key, value);
  }

  /** The padded line trims to the key, the padding around the `=`, and the value. */
  lemma PaddedLineTrims(ws0: string, key: string, ws1: string, ws2: string, value: string, ws3: string,
                        t: string)
    requires IsBlank(ws0) && IsBlank(ws1) && IsBlank(ws2) && IsBlank(ws3)
    requires ValidKey(key) && Trimmed(value)
    requires t == key + ws1 + "=" + (if value == [] then [] else ws2 + value)
    ensures Trim(ws0 + key + ws1 + "=" + ws2 + value + ws3) == t
  {
    var line := ws0 + key + ws1 + "=" + ws2 + value + ws3;
    assert t[0] == key[0];
    if value == [] {
      assert line == ws0 + t + (ws2 + ws3);
      assert t[|t| - 1] == '=';
      BlankConcat(ws2, ws3);
      TrimPadded(ws0, t, ws2 + ws3);
    } else {
      assert line == ws0 + t + ws3;
      assert t[|t| - 1] == value[|value| - 1];
      TrimPadded(ws0, t, ws3);
    }
  }

  /** A line whose trimmed text opens with a valid key and has its first `=` at `eq` splits
      there into that key and the unquoted value. */
  lemma ParseAtSplit(line: string, t: string, eq: nat, key: string, value: string)
    requires Trim(line) == t && ValidKey(key) && t != [] && t[0] == key[0]
    requires 0 < eq < |t| && IndexOf(t, '=') == eq
    requires Trim(t[..eq]) == key && Trim(t[eq + 1..]) == value
    ensures ParseEnvLine(line) == if Unquote(value).None? then SubstringFault else Pair(key, Unquote(value).value)
  {
    ParseTrimmedAtSplit(t, eq, key, value);
  }

  lemma ParseTrimmedAtSplit(t: string, eq: nat, key: string, value: string)
    requires ValidKey(key) && t != [] && t[0] == key[0]
    requires 0 < eq < |t| && IndexOf(t, '=') == eq
    requires Trim(t[..eq]) == key && Trim(t[eq + 1..]) == value
    ensures ParseTrimmed(t) == if Unquote(value).None? then SubstringFault else Pair(key, Unquote(value).value)
  {
    assert !IsComment(t) by {
      assert t[..1] == [key[0]];
    }
    assert ParseTrimmed(t) == Assignment(key, value);
  }

  /** Where a trimmed assignment line with white space around its `=` splits, and what it
      amounts to. */
  lemma PaddedParts(key: string, ws1: string, tail: string, t: string)
    requires ValidKey(key) && IsBlank(ws1) && t == key + ws1 + "=" + tail
    ensures t != [] && t[0] == key[0] && IndexOf(t, '=') == |key| + |ws1|
    ensures Trim(t[..|key| + |ws1|]) == key && t[|key| + |ws1| + 1..] == tail
  {
    var eq := |key| + |ws1|;
    assert t[..eq] == key + ws1;
    assert '=' !in ws1 by {
      assert !IsWhiteSpace('=');
    }
    FirstAt(t, '=', eq);
    assert t[eq + 1..] == tail;
    KeyThenBlank(key, ws1);
  }

  /** The first occurrence of `c` is at `k` when `s[k]` is `c` and nothing before it is. */
  lemma FirstAt(s: string, c: char, k: nat)
    requires k < |s| && s[k] == c && c !in s[..k]
    ensures IndexOf(s, c) == k
  {
  }

  lemma KeyThenBlank(key: string, ws: string)
    requires Trimmed(key) && IsBlank(ws)
    ensures Trim(key + ws) == key
  {
    assert key + ws == [] + key + ws;
    TrimPadded([], key, ws);
  }

  /** White space on both sides of a trimmed string is all that `Trim` removes. */
  lemma TrimPadded(a: string, m: string, b: string)
    requires IsBlank(a) && IsBlank(b) && Trimmed(m)
    ensures Trim(a + m + b) == m
  {
    var s := a + m + b;
    if m == [] {
      assert s == a + b;
      BlankConcat(a, b);
    } else {
      var lo := SkipWhiteSpace(s, 0);
      assert s[|a|] == m[0];
      assert lo == |a|;
      var hi := BackOverWhiteSpace(s, lo, |s|);
      assert s[|a| + |m| - 1] == m[|m| - 1];
      assert forall k | |a| + |m| <= k < |s| :: IsWhiteSpace(s[k]) by {
        forall k | |a| + |m| <= k < |s| ensures IsWhiteSpace(s[k]) {
          assert s[k] == b[k - |a| - |m|];
        }
      }
      assert hi == |a| + |m|;
      assert s[lo..hi] == m;
    }
  }

  lemma BlankConcat(a: string, b: string)
    requires IsBlank(a) && IsBlank(b)
    ensures IsBlank(a + b)
  {
    forall k | 0 <= k < |a + b| ensures IsWhiteSpace((a + b)[k]) {
      if k >= |a| {
        assert (a + b)[k] == b[k - |a|];
      }
    }
  }

  /** `KEY="value"` reads back as the text between the quotes, white space inside them included. */
  lemma ParseDoubleQuoted(key: string, value: string)
    requires ValidKey(key)
    requires !(StartsWith(value, "'") && EndsWith(value, "'"))
    ensures ParseEnvLine(key + "=" + ("\"" + value + "\"")) == Pair(key, value)
  {
    ParseOfAssignment(key, "\"" + value + "\"");
    UnquoteDoubleQuoted(value);
  }

  /** Stripping a pair of double quotes gives back what they enclose. */
  lemma UnquoteDoubleQuoted(value: string)
    requires !(StartsWith(value, "'") && EndsWith(value, "'"))
    ensures Unquote("\"" + value + "\"") == Some(value)
  {
    var quoted := "\"" + value + "\"";
    assert quoted[1..|quoted| - 1] == value;
    assert StripQuote(quoted, '"') == Some(value);
  }

  /** `KEY='value'` reads back as the text between the single quotes, whatever it holds: the
      double-quote test fails on the opening `'`, and the single quotes are stripped once. */
  lemma ParseSingleQuoted(key: string, value: string)
    requires ValidKey(key)
    ensures ParseEnvLine(key + "=" + ("'" + value + "'")) == Pair(key, value)
  {
    ParseOfAssignment(key, "'" + value + "'");
    UnquoteSingleQuoted(value);
  }

  /** Single quotes are stripped, and only once. */
  lemma UnquoteSingleQuoted(value: string)
    ensures Unquote("'" + value + "'") == Some(value)
  {
    var quoted := "'" + value + "'";
    assert quoted[..1] == "'";
    assert StripQuote(quoted, '"') == Some(quoted);
    assert quoted[1..|quoted| - 1] == value;
  }

  /** A value that is a lone quote of either kind makes the reader throw. */
  lemma LoneQuoteFaults(key: string, q: char)
    requires ValidKey(key)
    requires q == '"' || q == '\''
    ensures ParseEnvLine(key + "=" + [q]) == SubstringFault
  {
    ParseOfAssignment(key, [q]);
    if q == '\'' {
      assert StripQuote([q], '"') == Some([q]);
    }
  }

  /** A single quote inside double quotes makes the reader throw too: stripping the double quotes
      leaves a lone single quote. */
  lemma NestedLoneQuoteFaults(key: string)
    requires ValidKey(key)
    ensures ParseEnvLine(key + "=" + "\"'\"") == SubstringFault
  {
    ParseOfAssignment(key, "\"'\"");
    UnquoteNestedLoneQuote();
  }

  lemma UnquoteNestedLoneQuote()
    ensures Unquote("\"'\"") == None
  {
    assert "\"'\""[1..2] == "'";
    assert StripQuote("\"'\"", '"') == Some("'");
  }

  /** A pair of empty quotes is an empty value. */
  lemma EmptyQuotes(key: string)
    requires ValidKey(key)
    ensures ParseEnvLine(key + "=" + "\"\"") == Pair(key, "")
  {
    ParseOfAssignment(key, "\"\"");
    UnquoteEmptyQuotes();
  }

  lemma UnquoteEmptyQuotes()
    ensures Unquote("\"\"") == Some("")
  {
    assert "\"\""[1..1] == "";
  }

  // ---------------------------------------------------------------- merging into the environment

  /** Process environment variables by name. */
  type Environment = map<string, string>

  /** `SetEnvironmentVariable` treats an empty value, or one opening with NUL, as "remove". */
  predicate Settable(value: string) {
    value != [] && value[0] != '\0'
  }

  /** One line's effect on the environment: a key already set is left alone; otherwise the
      value is set, unless it is one `SetEnvironmentVariable` takes as "remove" (a no-op on a
      key that is not set). A name it refuses (empty, or opening with NUL) throws (`None`), and
      so does a line whose quotes fault. */
  function Merge(env: Environment, line: EnvLine): (r: Option<Environment>)
    ensures r.Some? ==> env.Keys <= r.value.Keys && forall k | k in env :: r.value[k] == env[k]
    ensures r.Some? ==> forall k | k in r.value && k !in env :: line.Pair? && k == line.key && r.value[k] == line.value
    ensures r.None? <==> line.SubstringFault? || (line.Pair? && line.key !in env && (line.key == [] || line.key[0] == '\0'))
  {
    match line
    case Ignored => Some(env)
    case SubstringFault => None
    case Pair(key, value) =>
      if key in env then Some(env)
      else if key == [] || key[0] == '\0' then None
      else if !Settable(value) then Some(env)
      else Some(env[key := value])
  }

  /** How the reading loop ends: it runs through every line, or an exception ends the process at
      the given line with the environment as it stood before that line. */
  datatype LoadOutcome = Loaded(env: Environment) | Crashed(env: Environment, line: nat)

  /** The reading loop from line `i` on. */
  function LoadFrom(env: Environment, lines: seq<string>, i: nat): (r: LoadOutcome)
    requires i <= |lines|
    ensures env.Keys <= r.env.Keys
    ensures forall k | k in env :: r.env[k] == env[k]
    ensures r.Crashed? ==> i <= r.line < |lines| && Merge(r.env, ParseEnvLine(lines[r.line])).None?
    decreases |lines| - i
  {
    if i == |lines| then Loaded(env)
    else
      match Merge(env, ParseEnvLine(lines[i]))
      case None => Crashed(env, i)
      case Some(next) => LoadFrom(next, lines, i + 1)
  }

  /** The reading loop over the whole file. Variables set before it keep their values, and a
      crash happens at a line whose merge throws. */
  function LoadEnvFile(env: Environment, lines: seq<string>): (r: LoadOutcome)
    ensures forall k | k in env :: k in r.env && r.env[k] == env[k]
    ensures r.Crashed? ==> r.line < |lines| && Merge(r.env, ParseEnvLine(lines[r.line])).None?
  {
    LoadFrom(env, lines, 0)
  }

  /** The value the first line that sets `key` to a settable value gives it, looking from line
      `i` on; `None` when no line does. */
  function FirstSetting(lines: seq<string>, key: string, i: nat): Option<string>
    requires i <= |lines|
    decreases |lines| - i
  {
    if i == |lines| then None
    else
      var parsed := ParseEnvLine(lines[i]);
      if parsed.Pair? && parsed.key == key && Settable(parsed.value) then Some(parsed.value)
      else FirstSetting(lines, key, i + 1)
  }

  /** Neither the name nor the value of an assignment holds U+0000. */
  predicate NulFreeLine(line: EnvLine) {
    line.Pair? ==> '\0' !in line.key && '\0' !in line.value
  }

  /** Within the file, the first line that gives an unset key a settable value decides it; a key
      no such line names stays unset. Names and values are taken whole, so the lines are
      assumed free of U+0000. */
  lemma {:induction false} FirstValueWins(env: Environment, lines: seq<string>, key: string, i: nat)
    requires i <= |lines|
    requires forall j | i <= j < |lines| :: NulFreeLine(ParseEnvLine(lines[j]))
    requires key !in env
    requires LoadFrom(env, lines, i).Loaded?
    ensures key in LoadFrom(env, lines, i).env <==> FirstSetting(lines, key, i).Some?
    ensures key in LoadFrom(env, lines, i).env ==>
              LoadFrom(env, lines, i).env[key] == FirstSetting(lines, key, i).value
    decreases |lines| - i
  {
    if i < |lines| {
      var parsed := ParseEnvLine(lines[i]);
      var next := Merge(env, parsed).value;
      if parsed.Pair? && parsed.key == key && Settable(parsed.value) {
        assert next == env[key := parsed.value];
      } else {
        assert key !in next;
        FirstValueWins(next, lines, key, i + 1);
      }
    }
  }

  /** The first line whose quotes fault ends the loop there or earlier. */
  lemma {:induction false} FaultStopsLoading(env: Environment, lines: seq<string>, i: nat, j: nat)
    requires i <= j < |lines|
    requires ParseEnvLine(lines[j]) == SubstringFault
    ensures LoadFrom(env, lines, i).Crashed? && LoadFrom(env, lines, i).line <= j
    decreases j - i
  {
    if i < j {
      match Merge(env, ParseEnvLine(lines[i]))
      case None =>
      case Some(next) => FaultStopsLoading(next, lines, i + 1, j);
    }
  }

  /** A file without faulting quotes or names starting with NUL is read to the end. */
  lemma {:induction false} CleanFileLoads(env: Environment, lines: seq<string>, i: nat)
    requires i <= |lines|
    requires forall j | i <= j < |lines| :: ParseEnvLine(lines[j]) != SubstringFault
    requires forall j | i <= j < |lines| :: ParseEnvLine(lines[j]).Pair? ==> ParseEnvLine(lines[j]).key[0] != '\0'
    ensures LoadFrom(env, lines, i).Loaded?
    decreases |lines| - i
  {
    if i < |lines| {
      CleanFileLoads(Merge(env, ParseEnvLine(lines[i])).value, lines, i + 1);
    }
  }

  /** Comment lines and lines without `=` change nothing. */
  lemma IgnoredLinesChangeNothing(env: Environment, line: string)
    requires IsComment(Trim(line)) || '=' !in line
    ensures Merge(env, ParseEnvLine(line)) == Some(env)
  {
  }
}

=== FILE: text.dfy ===
/**
  The .NET string primitives the application relies on, over `seq<char>`:
  `Char.IsWhiteSpace`, `String.IsNullOrWhiteSpace`, `Trim`, ordinal
  `StartsWith`/`EndsWith`, `IndexOf(char)`, `Split(char)`, `String.Join` and
  the ordinal ignore-case comparison.
*/
module Text {

  /** `Char.IsWhiteSpace`: the Unicode space separators, the line and paragraph
      separators, and the control characters U+0009..U+000D, U+0085. */
  predicate IsWhiteSpace(c: char) {
    || c == ' '
    || ('\t' <= c <= '\r')
    || c == '\U{0085}'
    || c == '\U{00A0}'
    || c == '\U{1680}'
    || ('\U{2000}' <= c <= '\U{200A}')
    || c == '\U{2028}'
    || c == '\U{2029}'
    || c == '\U{202F}'
    || c == '\U{205F}'
    || c == '\U{3000}'
  }

  /** `String.IsNullOrWhiteSpace` on a non-null string: empty or only white space. */
  predicate IsBlank(s: string) {
    forall i | 0 <= i < |s| :: IsWhiteSpace(s[i])
  }

  /** The first position at or after `i` that does not hold white space (or `|s|`). */
  function SkipWhiteSpace(s: string, i: nat): (r: nat)
    requires i <= |s|
    ensures i <= r <= |s|
    ensures forall k | i <= k < r :: IsWhiteSpace(s[k])
    ensures r < |s| ==> !IsWhiteSpace(s[r])
    decreases |s| - i
  {
    if i < |s| && IsWhiteSpace(s[i]) then SkipWhiteSpace(s, i + 1) else i
  }

  /** The end of `s[lo..hi]` once trailing white space is dropped. */
  function BackOverWhiteSpace(s: string, lo: nat, hi: nat): (r: nat)
    requires lo <= hi <= |s|
    ensures lo <= r <= hi
    ensures forall k | r <= k < hi :: IsWhiteSpace(s[k])
    ensures lo < r ==> !IsWhiteSpace(s[r - 1])
    decreases hi
  {
    if lo < hi && IsWhiteSpace(s[hi - 1]) then BackOverWhiteSpace(s, lo, hi - 1) else hi
  }

  /** `String.Trim()`: white space removed at both ends. */
  function Trim(s: string): (r: string)
    ensures |r| <= |s|
    ensures r == [] <==> IsBlank(s)
    ensures r != [] ==> !IsWhiteSpace(r[0]) && !IsWhiteSpace(r[|r| - 1])
    ensures forall c | c in r :: c in s
  {
    var lo := SkipWhiteSpace(s, 0);
    var hi := BackOverWhiteSpace(s, lo, |s|);
    assert lo < |s| ==> lo < hi;
    s[lo..hi]
  }

  /** `Trim` removes white space at the ends and nothing else: the result is a slice of the
      string with only white space before and after it. */
  lemma TrimRemovesOnlyEnds(s: string)
    ensures exists lo, hi | 0 <= lo <= hi <= |s| ::
      Trim(s) == s[lo..hi] && IsBlank(s[..lo]) && IsBlank(s[hi..])
  {
    var lo := SkipWhiteSpace(s, 0);
    var hi := BackOverWhiteSpace(s, lo, |s|);
    assert IsBlank(s[..lo]) && IsBlank(s[hi..]);
  }

  /** A string with no white space at either end is its own trim. */
  lemma TrimOfTrimmed(s: string)
    requires s == [] || (!IsWhiteSpace(s[0]) && !IsWhiteSpace(s[|s| - 1]))
    ensures Trim(s) == s
  {
  }

  /** Trimming twice is trimming once. */
  lemma TrimIdempotent(s: string)
    ensures Trim(Trim(s)) == Trim(s)
  {
    TrimOfTrimmed(Trim(s));
  }

  /** Ordinal `s.StartsWith(p)`. */
  predicate StartsWith(s: string, p: string) {
    |p| <= |s| && s[..|p|] == p
  }

  /** Two prefixes that differ at some position cannot both open the same string. */
  lemma PrefixesExclusive(s: string, p: string, q: string, k: nat)
    requires k < |p| && k < |q| && p[k] != q[k]
    ensures !(StartsWith(s, p) && StartsWith(s, q))
  {
  }

  /** Ordinal `s.EndsWith(p)`. */
  predicate EndsWith(s: string, p: string) {
    |p| <= |s| && s[|s| - |p|..] == p
  }

  /** `s.IndexOf(c)`: the first position of `c`, or -1 when `c` does not occur. */
  function IndexOf(s: string, c: char): (r: int)
    ensures -1 <= r < |s|
    ensures r == -1 <==> c !in s
    ensures 0 <= r ==> s[r] == c && c !in s[..r]
  {
    if |s| == 0 then -1
    else if s[0] == c then 0
    else
      var k := IndexOf(s[1..], c);
      if k == -1 then -1
      else
        assert s[..k + 1] == [s[0]] + s[1..][..k];
        k + 1
  }

  /** `String.Join(sep, parts)` with a one-character separator. */
  function Join(parts: seq<string>, sep: char): string {
    if |parts| == 0 then []
    else if |parts| == 1 then parts[0]
    else parts[0] + [sep] + Join(parts[1..], sep)
  }

  /** `s.Split(sep)`: every piece between separators, empty pieces included. */
  function Split(s: string, sep: char): (parts: seq<string>)
    ensures |parts| >= 1
    ensures forall i | 0 <= i < |parts| :: sep !in parts[i]
    ensures Join(parts, sep) == s
    decreases |s|
  {
    var k := IndexOf(s, sep);
    if k == -1 then [s]
    else
      var rest := Split(s[k + 1..], sep);
      var parts := [s[..k]] + rest;
      assert parts[0] == s[..k] && parts[1..] == rest;
      assert Join(parts, sep) == s[..k] + [sep] + Join(rest, sep);
      assert s == s[..k] + [sep] + s[k + 1..];
      parts
  }

  /** A piece that holds no separator is split off the front of a joined string. */
  lemma SplitFront(a: string, sep: char, b: string)
    requires sep !in a
    ensures Split(a + [sep] + b, sep) == [a] + Split(b, sep)
  {
    var s := a + [sep] + b;
    assert s[..|a|] == a;
    assert s[|a| + 1..] == b;
    assert IndexOf(s, sep) == |a| by {
      assert s[|a|] == sep;
    }
  }

  /** Splitting undoes joining, for pieces that contain no separator. */
  lemma {:induction false} SplitJoin(parts: seq<string>, sep: char)
    requires |parts| >= 1
    requires forall i | 0 <= i < |parts| :: sep !in parts[i]
    ensures Split(Join(parts, sep), sep) == parts
    decreases |parts|
  {
    if |parts| == 1 {
      assert IndexOf(parts[0], sep) == -1;
    } else {
      SplitJoin(parts[1..], sep);
      SplitFront(parts[0], sep, Join(parts[1..], sep));
      assert parts == [parts[0]] + parts[1..];
    }
  }

  /** `StringSplitOptions.RemoveEmptyEntries`: the pieces that are not empty, in order. */
  function NonEmpty(parts: seq<string>): (r: seq<string>)
    ensures forall i | 0 <= i < |r| :: r[i] != [] && r[i] in parts
    ensures forall i | 0 <= i < |parts| && parts[i] != [] :: parts[i] in r
    ensures multiset(r) == multiset(parts)[[] := 0]
  {
    if |parts| == 0 then []
    else
      assert parts == [parts[0]] + parts[1..];
      if parts[0] == [] then NonEmpty(parts[1..])
      else [parts[0]] + NonEmpty(parts[1..])
  }

  /** `idx` lists, in increasing order, exactly the positions of `parts` whose pieces are not
      empty, and `r` holds the pieces at those positions. */
  predicate Picks(parts: seq<string>, r: seq<string>, idx: seq<nat>) {
    |idx| == |r| && PicksAt(parts, r, idx) && Increasing(idx) && Covers(parts, idx)
  }

  /** `r[i]` is the piece at position `idx[i]`. */
  predicate PicksAt(parts: seq<string>, r: seq<string>, idx: seq<nat>)
    requires |idx| == |r|
  {
    forall i | 0 <= i < |idx| :: idx[i] < |parts| && r[i] == parts[idx[i]]
  }

  predicate Increasing(idx: seq<nat>) {
    forall i, j | 0 <= i < j < |idx| :: idx[i] < idx[j]
  }

  /** Every position of a non-empty piece is listed. */
  predicate Covers(parts: seq<string>, idx: seq<nat>) {
    forall j | 0 <= j < |parts| && parts[j] != [] :: j in idx
  }

  /** The positions of the pieces that are not empty, in increasing order. */
  function Positions(parts: seq<string>): (idx: seq<nat>)
    ensures |idx| == |NonEmpty(parts)|
  {
    if |parts| == 0 then []
    else if parts[0] == [] then Shift(Positions(parts[1..]))
    else [0] + Shift(Positions(parts[1..]))
  }

  /** Removing empty entries keeps the non-empty pieces in their original order, each once:
      the result holds exactly the pieces at the positions of the non-empty pieces. */
  lemma {:induction false} NonEmptyInOrder(parts: seq<string>)
    ensures Picks(parts, NonEmpty(parts), Positions(parts))
    decreases |parts|
  {
    if |parts| > 0 {
      NonEmptyInOrder(parts[1..]);
      var r := NonEmpty(parts[1..]);
      var tail := Positions(parts[1..]);
      if parts[0] == [] {
        assert NonEmpty(parts) == r && Positions(parts) == Shift(tail);
        ShiftPicksAt(parts, r, tail);
        ShiftIncreasing(tail);
        ShiftCovers(parts, tail);
        EmptyHeadCovers(parts, Shift(tail));
      } else {
        assert NonEmpty(parts) == [parts[0]] + r && Positions(parts) == [0] + Shift(tail);
        ShiftPicksAt(parts, r, tail);
        HeadPicksAt(parts, r, Shift(tail));
        ShiftIncreasing(tail);
        HeadIncreasing(Shift(tail));
        ShiftCovers(parts, tail);
        HeadCovers(parts, Shift(tail));
      }
    }
  }

  /** Every position one further on. */
  function Shift(idx: seq<nat>): (r: seq<nat>)
    ensures |r| == |idx| && forall i | 0 <= i < |idx| :: r[i] == idx[i] + 1
  {
    seq(|idx|, i requires 0 <= i < |idx| => idx[i] + 1)
  }

  lemma ShiftPicksAt(parts: seq<string>, r: seq<string>, tail: seq<nat>)
    requires |parts| > 0 && |tail| == |r| && PicksAt(parts[1..], r, tail)
    ensures PicksAt(parts, r, Shift(tail))
  {
    forall i | 0 <= i < |tail| ensures Shift(tail)[i] < |parts| && r[i] == parts[Shift(tail)[i]] {
      assert parts[1..][tail[i]] == parts[tail[i] + 1];
    }
  }

  lemma HeadPicksAt(parts: seq<string>, r: seq<string>, idx: seq<nat>)
    requires |parts| > 0 && |idx| == |r| && PicksAt(parts, r, idx)
    ensures PicksAt(parts, [parts[0]] + r, [0] + idx)
  {
    forall i | 0 < i < |idx| + 1 ensures ([0] + idx)[i] < |parts| && ([parts[0]] + r)[i] == parts[([0] + idx)[i]] {
      assert ([0] + idx)[i] == idx[i - 1];
    }
  }

  lemma ShiftIncreasing(tail: seq<nat>)
    requires Increasing(tail)
    ensures Increasing(Shift(tail))
  {
  }

  lemma HeadIncreasing(idx: seq<nat>)
    requires Increasing(idx) && forall i | 0 <= i < |idx| :: idx[i] > 0
    ensures Increasing([0] + idx)
  {
    forall i, j | 0 <= i < j < |idx| + 1 ensures ([0] + idx)[i] < ([0] + idx)[j] {
      assert ([0] + idx)[j] == idx[j - 1];
    }
  }

  lemma ShiftCovers(parts: seq<string>, tail: seq<nat>)
    requires |parts| > 0 && Covers(parts[1..], tail)
    ensures forall j | 1 <= j < |parts| && parts[j] != [] :: j in Shift(tail)
  {
    forall j | 1 <= j < |parts| && parts[j] != [] ensures j in Shift(tail) {
      assert parts[1..][j - 1] == parts[j];
      var i :| 0 <= i < |tail| && tail[i] == j - 1;
      assert Shift(tail)[i] == j;
    }
  }

  lemma EmptyHeadCovers(parts: seq<string>, idx: seq<nat>)
    requires |parts| > 0 && parts[0] == []
    requires forall j | 1 <= j < |parts| && parts[j] != [] :: j in idx
    ensures Covers(parts, idx)
  {
  }

  lemma HeadCovers(parts: seq<string>, idx: seq<nat>)
    requires |parts| > 0
    requires forall j | 1 <= j < |parts| && parts[j] != [] :: j in idx
    ensures Covers(parts, [0] + idx)
  {
  }

  /** The invariant upper-case mapping restricted to ASCII letters. */
  function UpperAscii(c: char): char {
    if 'a' <= c <= 'z' then (c as int - 32) as char else c
  }

  /** `String.Equals(a, b, StringComparison.OrdinalIgnoreCase)`. */
  predicate EqualsIgnoreCase(a: string, b: string) {
    |a| == |b| && forall i | 0 <= i < |a| :: UpperAscii(a[i]) == UpperAscii(b[i])
  }

  /** `s.StartsWith(p, StringComparison.OrdinalIgnoreCase)`. */
  predicate StartsWithIgnoreCase(s: string, p: string) {
    |p| <= |s| && EqualsIgnoreCase(s[..|p|], p)
  }

  /** Ignore-case equality is an equivalence: strings equal to a third are equal to each other. */
  lemma EqualsIgnoreCaseEuclidean(a: string, b: string, c: string)
    requires EqualsIgnoreCase(a, c) && EqualsIgnoreCase(b, c)
    ensures EqualsIgnoreCase(a, b)
  {
  }
}

=== FILE: title.dfy ===
/**
  `DocumentService.ExtractTitle`: the title derived from markdown content when
  the caller supplies none.
*/
module TitleExtraction {
  import opened Text

  /** The title of content that has no line with text on it. */
  const Untitled: string := "Untitled Document"

  lemma UntitledNotBlank()
    ensures !IsBlank(Untitled)
  {
    assert Untitled[0] == 'U';
  }

  /** A title taken from a plain (non-heading) line is cut to this many characters. */
  const MaxPlainTitleLength: nat := 100

  /** The trimmed line opens a level-1 or level-2 heading; `"### "` does not count. */
  predicate IsTitleHeading(trimmed: string) {
    StartsWith(trimmed, "# ") || StartsWith(trimmed, "## ")
  }

  /** The title that one line with text on it yields: a level-1 or level-2 heading gives its
      text, trimmed again and never cut; any other line gives its first 100 characters. */
  function TitleOfLine(line: string): (title: string)
    requires !IsBlank(line)
    ensures !IsBlank(title)
    ensures var t := Trim(line);
      && (StartsWith(t, "# ") ==> title == Trim(t[2..]))
      && (StartsWith(t, "## ") ==> title == Trim(t[3..]))
      && (!IsTitleHeading(t) ==>
            |title| == (if |t| > MaxPlainTitleLength then MaxPlainTitleLength else |t|) && StartsWith(t, title))
  {
    var t := Trim(line);
    PrefixesExclusive(t, "# ", "## ", 1);
    if StartsWith(t, "# ") then
      HeadingTextNotBlank(t, 2);
      Trim(t[2..])
    else if StartsWith(t, "## ") then
      HeadingTextNotBlank(t, 3);
      Trim(t[3..])
    else
      CutPlainTitle(t)
  }

  /** A plain line's title: its first 100 characters, or all of it when shorter. */
  function CutPlainTitle(t: string): (title: string)
    requires t != [] && !IsWhiteSpace(t[0])
    ensures !IsBlank(title)
    ensures |title| == (if |t| > MaxPlainTitleLength then MaxPlainTitleLength else |t|)
    ensures StartsWith(t, title)
  {
    var title := if |t| > MaxPlainTitleLength then t[..MaxPlainTitleLength] else t;
    assert title[0] == t[0];
    title
  }

  /** What follows a heading marker in a trimmed line still holds text: the line's last
      character is not white space. */
  lemma HeadingTextNotBlank(t: string, k: nat)
    requires k < |t| && !IsWhiteSpace(t[|t| - 1])
    ensures !IsBlank(Trim(t[k..]))
  {
    assert t[k..][|t| - k - 1] == t[|t| - 1];
  }

  /** The first line that is not blank decides; blank lines before it are passed over. */
  function TitleOfLines(lines: seq<string>): (title: string)
    ensures !IsBlank(title)
  {
    if |lines| == 0 then UntitledNotBlank(); Untitled
    // A blank line trims to "", which neither opens a heading nor holds text.
    else if IsBlank(lines[0]) then TitleOfLines(lines[1..])
    else TitleOfLine(lines[0])
  }

  /** `ExtractTitle(content)`. */
  function ExtractTitle(content: string): (title: string)
    ensures IsBlank(content) ==> title == Untitled
    ensures !IsBlank(title)
  {
    if IsBlank(content) then UntitledNotBlank(); Untitled
    else TitleOfLines(NonEmpty(Split(content, '\n')))
  }

  /** The index of the first line that is not blank, or the number of lines when all are blank. */
  function FirstContentLine(lines: seq<string>): (i: nat)
    ensures i <= |lines|
    ensures forall j | 0 <= j < i :: IsBlank(lines[j])
    ensures i < |lines| ==> !IsBlank(lines[i])
  {
    if |lines| == 0 || !IsBlank(lines[0]) then 0
    else 1 + FirstContentLine(lines[1..])
  }

  /** The title as described line by line: split the content at every line feed, take the
      first line that is not blank, and read the title off it. */
  function SpecifiedTitle(content: string): string {
    var lines := Split(content, '\n');
    var i := FirstContentLine(lines);
    if i == |lines| then Untitled else TitleOfLine(lines[i])
  }

  /** Dropping empty pieces does not move the first line with text. */
  lemma {:induction false} NonEmptyKeepsFirstContentLine(lines: seq<string>)
    ensures var i := FirstContentLine(lines);
      TitleOfLines(NonEmpty(lines)) == if i == |lines| then Untitled else TitleOfLine(lines[i])
    decreases |lines|
  {
    if |lines| > 0 {
      if IsBlank(lines[0]) {
        NonEmptyKeepsFirstContentLine(lines[1..]);
        if lines[0] != [] {
          assert NonEmpty(lines)[1..] == NonEmpty(lines[1..]);
        }
      } else {
        assert |lines[0]| > 0;
      }
    }
  }

  /** Joining blank pieces with a white-space separator gives a blank string. */
  lemma {:induction false} JoinOfBlank(parts: seq<string>, sep: char)
    requires IsWhiteSpace(sep)
    requires forall i | 0 <= i < |parts| :: IsBlank(parts[i])
    ensures IsBlank(Join(parts, sep))
    decreases |parts|
  {
    if |parts| > 1 {
      JoinOfBlank(parts[1..], sep);
      var s := Join(parts, sep);
      assert s == parts[0] + [sep] + Join(parts[1..], sep);
      forall k | 0 <= k < |s| ensures IsWhiteSpace(s[k]) {
        if k < |parts[0]| {
          assert s[k] == parts[0][k];
        } else if k > |parts[0]| {
          assert s[k] == Join(parts[1..], sep)[k - |parts[0]| - 1];
        }
      }
    }
  }

  /** `ExtractTitle` behaves as the line-by-line description: neither its early exit on blank
      content nor its removal of empty pieces changes the outcome. */
  lemma ExtractTitleMeetsSpec(content: string)
    ensures ExtractTitle(content) == SpecifiedTitle(content)
  {
    NonEmptyKeepsFirstContentLine(Split(content, '\n'));
    BlankIffNoContentLine(content);
  }

  /** Content is blank exactly when none of its lines has text on it. */
  lemma BlankIffNoContentLine(content: string)
    ensures FirstContentLine(Split(content, '\n')) == |Split(content, '\n')| <==> IsBlank(content)
  {
    var lines := Split(content, '\n');
    var i := FirstContentLine(lines);
    if i < |lines| {
      var c :| 0 <= c < |lines[i]| && !IsWhiteSpace(lines[i][c]);
      JoinHolds(lines, '\n', i, c);
    } else {
      JoinOfBlank(lines, '\n');
    }
  }

  /** Every character of every piece occurs in the joined string. */
  lemma {:induction false} JoinHolds(parts: seq<string>, sep: char, i: nat, c: nat)
    requires i < |parts| && c < |parts[i]|
    ensures parts[i][c] in Join(parts, sep)
    decreases |parts|
  {
    if |parts| > 1 {
      var rest := Join(parts[1..], sep);
      var s := parts[0] + [sep] + rest;
      assert Join(parts, sep) == s;
      if i == 0 {
        assert s[c] == parts[0][c];
      } else {
        assert parts[1..][i - 1] == parts[i];
        JoinHolds(parts[1..], sep, i - 1, c);
        var k :| 0 <= k < |rest| && rest[k] == parts[i][c];
        assert s[|parts[0]| + 1 + k] == rest[k];
      }
    }
  }

  /** Content that is not blank takes its title from its first line with text; otherwise it
      is untitled. */
  lemma TitleFromFirstContentLine(content: string)
    ensures var lines := Split(content, '\n');
      var i := FirstContentLine(lines);
      && (i == |lines| <==> IsBlank(content))
      && (i < |lines| ==> ExtractTitle(content) == TitleOfLine(lines[i]))
  {
    ExtractTitleMeetsSpec(content);
    BlankIffNoContentLine(content);
  }

  /** Content whose first line is a level-1 heading takes the heading's text as its title,
      however long it is: nothing cuts it. */
  lemma HeadingTitleNotCut(text: string, rest: string)
    requires text != [] && !IsWhiteSpace(text[0]) && !IsWhiteSpace(text[|text| - 1]) && '\n' !in text
    requires rest == [] || rest[0] == '\n'
    ensures ExtractTitle("# " + text + rest) == text
  {
    var line := "# " + text;
    HeadingLineTitle(text);
    FirstLineIs(line, rest);
    var lines := Split(line + rest, '\n');
    assert FirstContentLine(lines) == 0;
    ExtractTitleMeetsSpec(line + rest);
  }

  /** A level-1 heading line holds no line feed and yields its text as the title. */
  lemma HeadingLineTitle(text: string)
    requires text != [] && !IsWhiteSpace(text[0]) && !IsWhiteSpace(text[|text| - 1]) && '\n' !in text
    ensures '\n' !in "# " + text && !IsBlank("# " + text)
    ensures TitleOfLine("# " + text) == text
  {
    var line := "# " + text;
    assert line == ['#', ' '] + text;
    assert line[2] == text[0];
    TrimOfTrimmed(line);
    TrimOfTrimmed(text);
    assert line[2..] == text;
  }

  /** A line without line feeds, followed by nothing or by a line feed, is the first piece. */
  lemma FirstLineIs(line: string, rest: string)
    requires '\n' !in line
    requires rest == [] || rest[0] == '\n'
    ensures Split(line + rest, '\n')[0] == line
  {
    if rest == [] {
      assert line + rest == line;
      SplitWhole(line);
    } else {
      LineFeedAfter(line, rest);
    }
  }

  lemma LineFeedAfter(line: string, rest: string)
    requires '\n' !in line
    requires rest != [] && rest[0] == '\n'
    ensures IndexOf(line + rest, '\n') == |line|
    ensures (line + rest)[..|line|] == line
  {
    var s := line + rest;
    assert s[|line|] == '\n';
    assert s[..|line|] == line;
  }

  lemma SplitWhole(line: string)
    requires '\n' !in line
    ensures Split(line, '\n') == [line]
  {
    assert IndexOf(line, '\n') == -1;
  }

  /** `"### "` is not a heading for titles: such a line is taken as plain text. */
  lemma LevelThreeIsPlain(line: string)
    requires !IsBlank(line) && StartsWith(Trim(line), "### ")
    ensures StartsWith(Trim(line), TitleOfLine(line))
  {
    PrefixesExclusive(Trim(line), "# ", "### ", 1);
    PrefixesExclusive(Trim(line), "## ", "### ", 2);
  }
}

=== FILE: wrappers.dfy ===
/** Optional values, standing for the C# null. */
module Wrappers {

  /** A value that may be absent: a C# nullable reference or `T?`. */
  datatype Option<+T> = None | Some(value: T)
}
